=== FILE: README.md ===
# validating — a Dafny model of the validation engine

`validating` is a small JavaScript library. It checks values against named
validators (`required`, `type`, `length`, `url`, …) and compiles
per-field rule lists ("descriptors") into one function. That function
validates a whole object and returns `{valid, errors}`. This project
models the library's engine as pure Dafny functions and proves properties
about them. The engine has four parts:

- **Validator base** (`validator.dfy`, module `ValidatorBase`; `template.dfy`, module `Template`):
  - `isEmpty` in both shipped variants;
  - the `message` ↔ `messages.default` alias;
  - `prepare`, the `{{word}}` message templating.

  `Build = Dist | Src` selects between the two base classes:
  - `Dist` is dist/validating.js. Its `isEmpty` checks the constructor, and its `prepare` falls back to the validator's own fields.
  - `Src` is src/validator.js with src/validators.js and lib/validators.js. Every key-less object counts as empty, and `prepare` reads only its references argument.
- **Catalog** (`catalog.dfy`, module `Catalog`; `patterns.dfy`, module `Patterns`):
  - One `Decide…` function per built-in validator, from `required` to `datetime`. It says whether the value passes, which message key it fails with, and how that message is worded.
  - `Validate` turns the verdict into the return value `true`, the message string, or a precondition error (`Result.Err`).
  - Where the catalog uses fixed regular expressions, `Patterns` implements them as hand-written recognisers: url, email, IPv4, hostname, date, time and datetime. Each is proved against an independent statement of the language it accepts.
- **Registry and rule resolver** (`registry.dfy`, `resolver.dfy`):
  - `define`, `create` and the load-time registration loop;
  - `processRule`, which turns a rule given as a string, function, array or object into a validator.
- **Descriptor compiler** (`compiler.dfy`, module `Compiler`):
  - `forDescriptor` and `forDescriptors`, as an interpreter over the field list instead of generated code.
  - `Copy = SrcIndex | LibIndex | DistBundle` selects one of the three copies of the compiler. The lib copy sorts the field names. The dist copy inlines the rules and rejects string rules.

`JValue` (`js_values.dfy`) models the JavaScript values a validator sees.
- Arrays, objects and dates carry a reference identity for `===`.
- Objects carry their prototype chain as class identities, for `constructor` and `instanceof`.
- Numbers are integers.

`Results` (`results.dfy`) separates two kinds of "no":
- a value that fails a rule, shown as an ordinary message (`Outcome.Fail`);
- a misconfiguration that the source throws, shown as `Result.Err(ConfigError)`.

`examples.dfy` proves the library's own test cases about the model.

**How a field's rules combine.** The code joins the generated per-rule `if` blocks with `else` (src/index.js:73, lib/index.js:56, dist/validating.js:62). So the first failing rule decides the field's error, and later rules of that field never run. The model follows the code:
- `Compiler.RunField` reports the first failing rule;
- `Compiler.LaterRulesNotRun` proves that rules appended after a failure change nothing.

test/examples.js:26-37 shows the same behaviour.

## Model

| member | source | states |
|---|---|---|
| ValidatorBase.DistEmptiness | dist/validating.js:145-155 | null, undefined, '' and [] are empty; a key-less object is empty iff it has no constructor or its constructor is Object; booleans, numbers, functions, dates and non-empty containers are not |
| ValidatorBase.SrcEmptiness | src/validator.js:46-59 | the src variant accepts everything the dist one does, and additionally exactly the key-less class instances and dates |
| ValidatorBase.OutcomeOf | src/index.js:66-69 | a validator's return counts as a pass iff it is exactly `true`; any other value is kept as the error |
| ValidatorBase.MessageAlias | dist/validating.js:125-132 | after writing `message`, reading it and `messages.default` both give the written text, and every other message key and field is unchanged |
| ValidatorBase.PrepareIn | dist/validating.js:163-172 | a missing message is a precondition error; with references, or under the dist build, the result is Ok exactly when the message exists, and it is the templated text filled from the given references or else from the validator's own fields; under the src build without references it is Ok iff the message holds no token |
| ValidatorBase.Respond | dist/validating.js:163-172 | a verdict becomes `true` iff it is Valid; a misconfiguration becomes its error; a message without tokens is returned verbatim; the src build's raw wording returns the unprepared message (or undefined) |
| ValidatorBase.OwnWordingWithToken | src/validator.js:67-71 | a message with a token prepared without references throws in the src build and yields a message string in the dist build |
| ValidatorBase.ValidateBase | src/validator.js:80-82 | the base validator accepts every value |
| ValidatorBase.OwnCollectionRendering | dist/validating.js:405-414 | the `trueValues` and `falseValues` arrays the boolean constructor's defaults create, and url's `schemes`, render into a message as their items joined by commas, and the own `messages` object as '[object Object]' |
| ValidatorBase.OwnBoundRendering | dist/validating.js:168-171 | from its own fields, a length or number validator renders `{{min}}`/`{{max}}` as the bound's decimal text when it is non-zero, and as '' when it is missing or zero |
| Template.PrepareWithoutTokens | dist/validating.js:169-171 | a message with no `{{word}}` token comes back unchanged |
| Template.PrepareToken | dist/validating.js:169-171 | a token at the front is replaced by its rendered reference and the scan continues after it |
| Template.TokenFound | dist/validating.js:169 | a well-formed token anywhere in a message is detected |
| Template.PrepareFormat | dist/validating.js:163-172 | templating the text of any well-formed parsed template equals the independent fill of that template: literal text kept, every token replaced by its reference or '' |
| Catalog.DecideRequired | dist/validating.js:201-207 | valid iff the value is not empty; otherwise the default message, not prepared in the src build |
| Catalog.RequiredIgnoresAllowEmpty | dist/validating.js:201-207 | required's verdict does not depend on `allowEmpty`, and it passes iff the value is non-empty |
| Catalog.AllowEmptyPasses | dist/validating.js:224-226 | with `allowEmpty` set and an empty value, every catalog validator except required passes once its call-time preconditions hold |
| Catalog.TypeAcceptsNull | dist/validating.js:227-233 | type 'null' accepts exactly null; type 'object' accepts null and every object-typed value |
| Catalog.DecideType | dist/validating.js:223-239 | valid iff skipped as empty, or `typeof value` equals the type, or the type is 'null' and the value null; otherwise the message filled with got = typeof value and expected = the type |
| Catalog.DecideInstance | dist/validating.js:262-288 | a falsy class, then a class that is neither string nor function, are errors before anything else; otherwise valid iff skipped, or the value is an instance (function class) or its constructor's name matches (string class); otherwise expected/got names filled in |
| Catalog.PreconditionsPrecedeAllowEmpty | dist/validating.js:313-315 | an unusable instanceOf or length configuration throws even for an empty value with `allowEmpty` set |
| Catalog.Measure | dist/validating.js:327-357 | a size passes iff it lies within every truthy bound, inclusive; below a truthy min gives tooShort, else above a truthy max gives tooLong |
| Catalog.DecideLength | dist/validating.js:313-326 | with no truthy bound, an error; else valid iff skipped or the string length / array length / own-key count fits; other values get 'invalid'; failures name tooShort or tooLong by kind |
| Catalog.DecideNumber | dist/validating.js:378-390 | valid iff skipped or a number within the truthy bounds; a non-number is 'invalid'; a failing number is tooSmall when below a truthy min, else tooLarge |
| Catalog.DecideBoolean | dist/validating.js:415-425 | valid iff skipped or strictly equal to an element of trueValues or falseValues |
| Catalog.DecideRegexp | dist/validating.js:454-464 | valid iff skipped or a string the pattern accepts (an unset pattern accepts all); a non-string gets badType |
| Catalog.DecideRange | dist/validating.js:485-514 | `between` takes precedence: a malformed pair is an error, else valid iff start <= value <= stop; otherwise `in` must be an array and the value passes iff it is strictly in it; with neither set, valid |
| Catalog.DecideUrl | dist/validating.js:552-568 | valid iff skipped, or some scheme alternative followed by `://` and a dotted host prefixes the text, or (non-strict) a dotted host prefixes it |
| Catalog.DecideEmail | dist/validating.js:586-595 | valid iff skipped or some '@' is followed by a dotted host running to the end |
| Catalog.DecideIp | dist/validating.js:621-631 | valid iff skipped, or v4 is on and the text is a dotted quad, or v6 is on and the IPv6 pattern accepts it |
| Catalog.DecideHostname | dist/validating.js:649-659 | valid iff skipped, or the stringified value has 1 to 255 characters and matches the hostname labels |
| Catalog.DecideDate | dist/validating.js:674-689 | valid iff skipped, a Date instance, or a YYYY-MM-DD text with month < 13 and day < 32 |
| Catalog.DecideTime | dist/validating.js:704-719 | valid iff skipped, a Date instance, or an HH:MM:SS text with hour < 24, minute < 60, second < 60 |
| Catalog.DecideDateTime | dist/validating.js:734-751 | valid iff skipped, a Date instance, or a date, optional separator, time and fraction tail within the same bounds |
| Catalog.Validate | dist/validating.js:181-183 | the base validator passes everything, a custom validator returns its function's verdict, and a catalog validator passes iff its verdict is Valid |
| Catalog.ValidateResponds | dist/validating.js:181-183 | a catalog validator's return is its verdict passed through `prepare`: `true`, the worded message, or the thrown configuration error |
| Catalog.PlainMessageReturned | dist/validating.js:169-171 | a failing validator whose message has no tokens returns exactly that message |
| JsValues.CompareNumbers | dist/validating.js:498 | on numbers, `>=` and `<=` are the integer order |
| JsValues.CompareStrings | dist/validating.js:498 | on strings, `>=` and `<=` are the lexicographic order, reflexive at equality |
| JsValues.CompareNaN | dist/validating.js:498 | undefined and non-numeric text are neither `>=` nor `<=` any number |
| JsValues.CompareDates | dist/validating.js:498 | a date lies between two numbers iff its time value does |
| JsValues.StringToNumber | dist/validating.js:498 | digit text converts to its decimal value and the empty text to 0; a `-` or `+` before digits negates or keeps the value; any other text is NaN, and only such text is |
| JsValues.NumberTextRoundTrip | dist/validating.js:498 | the decimal text of any integer, sign included, converts back to that integer |
| Patterns.HostPrefixScanCorrect | dist/validating.js:553 | the one-pass host scan accepts exactly the texts that start with a label, a dot and an alphanumeric |
| Patterns.UrlExec | dist/validating.js:553-563 | the scheme group matches iff some scheme alternative with `://` and a host prefixes the text; a match without it means a host prefix; no match means no host prefix |
| Patterns.SplitJoin | dist/validating.js:615 | splitting at dots undoes joining dot-free parts |
| Patterns.DottedHostOfLabels | dist/validating.js:586 | two or more labels joined by dots form a dotted host |
| Patterns.OctetAlternativesExact | dist/validating.js:615 | the three octet alternatives accept exactly the 1-3 digit texts denoting at most 255 |
| Patterns.IPv4Sound | dist/validating.js:615 | every accepted address splits into four octets that join back to it |
| Patterns.IPv4Complete | dist/validating.js:615 | any four octets joined by dots are accepted |
| Patterns.HostnameOfLabels | dist/validating.js:647 | a text is a hostname iff it is host labels joined by dots, the last starting with a letter, with or without one trailing dot |
| Patterns.DateTimeDecomposes | dist/validating.js:734-747 | a datetime is exactly a valid date, an optional separator, a valid time and a fraction tail |
| Registry.Configure | dist/validating.js:125-138 | configuring keeps the build, sets `allowEmpty` and the messages from the options or keeps the defaults, and a `message` option becomes `messages.default` |
| Registry.ConfigureNothing | dist/validating.js:36-38 | creating without options yields the registered prototype itself |
| Registry.MessageBeatsMessages | dist/validating.js:129-131 | a `message` option wins over a `messages.default` given alongside it |
| Registry.BasePrototype | src/validator.js:14-39 | the base validator starts with `allowEmpty` false and message 'Invalid value.' |
| Registry.Define | src/index.js:22-30 | defining stores the class under its name, adds exactly that name, and leaves every other entry unchanged |
| Registry.Create | src/index.js:40-42 | creating fails iff nothing is registered under the name |
| Registry.DefineThenCreate | src/index.js:22-42 | after define, create of that name yields the defined class configured, and other names behave as before |
| Registry.RegisterBuiltins | src/index.js:167-175 | the load-time loop registers exactly the exported names, each with its catalog prototype |
| Registry.CreateWithMessage | test/test.js:19-25 | `create('required', {message: 'Required!'}).message` reads 'Required!' |
| Resolver.ProcessRule | src/index.js:138-163 | a string creates without options; a function becomes a base validator running it; an array or object creates by its derived name and fails with the name error iff no name can be derived |
| Resolver.ProcessRuleDist | dist/validating.js:78-97 | the dist copy rejects a bare string rule and otherwise agrees with the src copy |
| Resolver.FunctionRuleValidates | src/index.js:148-152 | an inline function rule passes exactly when the function returns `true` |
| Resolver.ShapesAgree | lib/index.js:103-115 | 'name', ['name'] and {name: 'name'} resolve identically, and succeed iff the name is registered |
| Resolver.ResolvedRulesAreRegistered | src/index.js:139-157 | a rule that resolves names a registered validator |
| Compiler.ResolveAll | src/index.js:64 | all rules resolve iff each does; the validators are the resolved rules in order; a failure is the first failing rule's error |
| Compiler.RunField | src/index.js:64-74 | a field is valid with no error iff every rule passes; otherwise its error, or thrown error, comes from a rule all of whose predecessors passed |
| Compiler.FirstRuleFails | src/index.js:66-73 | a failing first rule decides the field's error |
| Compiler.FirstRulePasses | src/index.js:66-73 | a passing first rule hands over to the rest of the chain |
| Compiler.LaterRulesNotRun | src/index.js:73 | once a chain has stopped, appending rules does not change the field's result |
| Compiler.PassingRulesDefer | src/index.js:73 | after a fully passing chain, appended rules alone decide the field |
| Compiler.ForDescriptor | src/index.js:51-80 | an empty name, then a non-object descriptor, are errors; a non-array `rules` yields null; otherwise it compiles iff every rule resolves, to the resolved validators in order |
| Compiler.EmptyRulesValid | src/index.js:71-74 | an empty rule list compiles and is valid with no error |
| Compiler.CompileField | src/index.js:99-116 | a null descriptor throws; falsy `rules` skips the field; a non-array `rules` gives a field that throws when called (src, lib) or fails to compile (dist); an empty rule array emits no line in dist but a field function in src and lib |
| Compiler.EmptyRulesOnNullish | dist/validating.js:56-62 | with a single empty-rules field, null or undefined input is valid under the dist copy, whose body reads nothing, but throws under the src copy, which reads `obj[name]` |
| Compiler.RunCompiled | src/index.js:110-115 | calling on null or undefined throws, a null field function throws, otherwise the field's chain runs on `obj[name]` |
| JsValues.OwnPropertyReads | src/index.js:110-115 | `obj[name]` reads a string's or array's `length` and its element at each index text, a function's `name`, and an object's own field, and reads nothing on booleans, numbers and dates |
| Examples.LengthFieldOfString | src/index.js:110-115 | a `length` field with a `required` rule, run on a string, reads the string's length and passes |
| Compiler.RunTwoFields | src/index.js:118-122 | a two-field schema is valid iff both fields are, with the failing fields' errors in field order |
| Compiler.SchemaByKeys | src/index.js:99-122 | the schema runs iff every key runs on its own; then it is valid iff no key fails, and `errors` maps exactly the failing keys to their errors |
| Compiler.ReadsOnlyCompiledFields | src/index.js:111 | the schema result depends only on the compiled fields' values in the object |
| Compiler.RunSchemaLib | lib/index.js:84 | the lib result carries the validated object itself, with the same `valid` and `errors` |
| Compiler.PipelineIsSchemaRun | lib/index.js:67-90 | the lib copy compiles the sorted field names, the others the names as listed |
| Compiler.SrcLibCompileAlike | lib/index.js:45-60 | the src and lib copies compile every field list identically |
| Compiler.SameKeysSameErrors | src/index.js:93-122 | two field lists with the same names give the same success, validity and error object |
| Compiler.SortedKeysSameErrors | lib/index.js:70 | sorting field names changes only the order of `errors`, not the success, validity or error object |
| Compiler.Insert | lib/index.js:70 | inserting into a sorted list keeps it sorted and adds exactly the new name |
| Compiler.SortNames | lib/index.js:70 | the sort result is sorted and a permutation of the names |
| Examples.TypeMessage | dist/validating.js:234-237 | a type mismatch returns 'Expected <type>, got <typeof value>.' in both builds |
| Examples.TypeMessageOfNumber | test/test.js:137 | a string type validator on a number returns 'Expected string, got number.' |
| Examples.LengthMessageAsWritten | src/validators.js:183-184 | under the src build, a string shorter than `min` makes the length validator throw instead of returning a message |
| Examples.LengthFiveAsWritten | src/validators.js:184 | src `length {min: 5}` on any string shorter than 5 throws |
| Examples.LengthMessageCorrected | dist/validating.js:329-330 | under the dist build the same call returns 'Too short, should be at least <min> character(s).' |
| Examples.LengthFiveCorrected | dist/validating.js:329-330 | the dist `length {min: 5}` on a shorter string returns 'Too short, should be at least 5 character(s).' |
| Examples.NullStopsAtRequired | test/examples.js:26-37 | a null value stops at a leading `required` with 'Cannot be empty.', whatever rules follow |
| Examples.TrueValuesToken | dist/validating.js:415-423 | `create('boolean', {message: 'Use {{trueValues}}'}).validate('x')` under the dist build returns 'Use true', the token read from the own `trueValues` array |
| Examples.SchemesToken | dist/validating.js:529-536 | under the dist build, a url validator's message 'Use {{schemes}}' prepares to 'Use http,https', the default schemes joined by a comma |
| Examples.UserCompiles | test/test.js:29-42 | the lib copy compiles the User descriptors to the email field and then the name field |
| Examples.UserValid | test/test.js:45-52 | non-empty strings for both fields give `{valid: true, errors: {}}` |
| Examples.UserMissingName | test/test.js:54-62 | a missing name gives only the name error 'Cannot be empty.' |
| Examples.UserWrongTypes | test/test.js:64-73 | an object email and a boolean name give one type message per field |

## Left out

- The `classing` and `obligations` libraries bundled in dist/validating.js after line 752 are left out. A class is a prototype `Validator` value, `configure` is `Registry.Configure`, and every precondition is a `ConfigError`.
- The `new Function` code generation and the dot/bracket accessor choice are left out. Fields are plain map keys, so quoting artefacts of unusual field names are not modelled.
- The user `regexp` pattern and the IPv6 pattern are uninterpreted predicates (`string -> bool`).
- Registry.Configure: the source's `configure` assigns every writable property of the class, so it also accepts these options. The model drops each of them, so the built-in pattern or method stays in force.
  - a `pattern` for url, email, hostname, date, time and datetime;
  - a `patterns` object for ip;
  - replacements for `isEmpty`, `prepare` and the other methods.
  A `validate` replacement is modelled, as a `Custom` kind.
- The url pattern's memoisation is left out. The pattern is a function of the current `schemes`, so changing `schemes` after the first call is not ignored as it is in the source.
- Numbers are integers. Floating point, NaN arithmetic, Infinity and `-0` are not modelled.
- JsValues.StringToNumber: only decimal digits with an optional leading `-` or `+` convert. Text with surrounding whitespace, exponents, fractions or a hex prefix is NaN in the model, although JavaScript converts it to a number.
- Catalog.DecideLength: string length counts characters, not UTF-16 code units, so a non-BMP character has length 1 where the source counts 2.
- Patterns.SchemeThenHost: case-insensitive matching folds only ASCII letters.
- Catalog.DecideDateTime: the fraction tail's `.` consumes one character, where the source's non-unicode `.` consumes one UTF-16 code unit. A non-BMP character is two code units, so `2020-01-01T00:00:00` followed by U+1F600 and `1` is accepted by the model and rejected by the source.
- JsValues.CompareStrings: strings compare by Unicode scalar value, not by UTF-16 code units. The orders differ when a non-BMP character meets one in U+E000 to U+FFFF.
- JsValues.LessThan: string comparison has the same scalar-versus-code-unit gap as `JsValues.CompareStrings`.
- Patterns.UrlExec: scheme alternatives are matched as literal text. The source splices them unescaped into a regular expression, so a scheme containing metacharacters, such as 'svn+ssh', is not matched literally there.
- Catalog.DecideUrl: schemes are literal, metacharacter-free text. The source builds its pattern with `replace`, which also rewrites `$&` and `$$` in a scheme, and splices the result unescaped, so such schemes behave differently. Case folding covers ASCII letters only.
- ValidatorBase.PrepareIn: without references, the dist `prepare` can read any property of the instance. `OwnFields` holds only these:
  - the data fields;
  - `message` and `messages`;
  - `trueValues`, `falseValues` and `schemes`.
  These render as '' in the model: methods; accessors such as url's and regexp's `pattern`; url's memoised `_pattern`; the regular-expression `pattern` values of email, hostname, date, time and datetime, which the source prints as their regex text; and ip's `patterns` object, which prints as '[object Object]'.
- JsValues.Get: reads an object's own fields, a string's or array's `length` and indices, and a function's `name`. A function's `length` and `prototype`, and inherited properties of any value, read as `undefined`.
- Options unrelated to a validator's class are dropped, as in the source, whose `configure` assigns only the class's own property names.
- `trueValues`/`falseValues` must be arrays.
- `Object.keys` order is the given key list. The integer-like keys JavaScript moves to the front are not modelled.
- Compiler.SortNames orders by character, while `Array.prototype.sort` compares UTF-16 code units. The two agree on the Basic Multilingual Plane.
- Custom validator functions are total `JValue -> JValue` functions. Their `this` binding and any exceptions they throw are not modelled.
- The text of `Date.prototype.toString` and `Function.prototype.toString` is carried in the value as given, since it depends on the host's locale and time zone.
- lib/validator.js is not part of this model. The lib copy is taken to share the src base class.
- Mutation of a validator's fields between calls is not modelled. Validators are immutable values, and `SetMessage` returns a new one.

## Findings

| source | as written | input that shows it | evidently intended | confidence | as-written member | corrected member |
|---|---|---|---|---|---|---|
| src/validator.js:67-71 | `prepare(message, references)` reads `references[item]` with no fallback. src/validators.js:184, 187, 200, 203, 217, 220, 256 and 259 call it without references, so any `{{min}}`/`{{max}}` token dereferences `undefined` and throws a TypeError | `create('length', {min: 5}).validate('abc')` under the src build | fall back to the validator's own fields, as dist/validating.js:168 does. The call then returns 'Too short, should be at least 5 character(s).', which is what test/test.js:227 expects for `min: 3` | high; not executed | Examples.LengthMessageAsWritten | Examples.LengthMessageCorrected |

- The as-written half is the `Src` build of `ValidatorBase.PrepareIn`. `ValidatorBase.OwnWordingWithToken` proves that it throws for every tokened message prepared without references. `Examples.LengthMessageAsWritten` and `Examples.LengthFiveAsWritten` instantiate this for the length validator.
- The corrected half is the `Dist` build of `ValidatorBase.PrepareIn`. It is Ok exactly when the message exists, and it fills tokens from `OwnFields`. `Examples.LengthMessageCorrected` and `Examples.LengthFiveCorrected` prove the intended message.
- The catalog is modelled after the dist copy throughout, so every catalog property above holds for the corrected definition. The `Src` build carries four things: the discrepancy, the src variant of `isEmpty`, the raw, unprepared returns of src/validators.js (for example at lines 20, 174, 253 and 303), and the lib User-schema examples, whose validators extend the src base class.

=== FILE: catalog.dfy ===
/** The built-in validators: required, type, instanceOf, length, number,
    boolean, regexp, range, url, email, ip, hostname, date, time and
    datetime (dist/validating.js:185-752; the src copies of the first six
    in src/validators.js and of the first three in lib/validators.js).

    Each `Decide…` function states what one validator decides about a
    value: valid, invalid with a named message, or misconfigured. `Validate`
    then words that verdict the way `validate` returns it (see
    `ValidatorBase.Respond`). Patterns are the recognisers of `Patterns`;
    the user's `regexp` pattern and the IPv6 pattern are predicates the
    configuration supplies.
 */
module Catalog {
  import opened Results
  import opened JsValues
  import opened Text
  import opened Template
  import opened Patterns
  import opened ValidatorBase

  /** The message templates each validator starts with. A child class's
      `messages` replaces the base class's map, so for example the length
      validator has no `default` message. */
  function DefaultMessages(k: Kind): map<string, string>
  {
    match k
    case Base => map[DefaultKey := "Invalid value."]
    case Custom(_) => map[DefaultKey := "Invalid value."]
    case Required => map[DefaultKey := "Cannot be empty."]
    case TypeCheck(_) => map[DefaultKey := "Expected {{expected}}, got {{got}}."]
    case InstanceCheck(_) => map[DefaultKey := "Expected {{expected}}, got {{got}}."]
    case Length(_, _) => map[
        "invalid" := "The value is invalid.",
        "tooShortString" := "Too short, should be at least {{min}} character(s).",
        "tooLongString" := "Too long, should be at most {{max}} character(s).",
        "tooShortArray" := "Too short, should contain at least {{min}} item(s).",
        "tooLongArray" := "Too long, should contain at most {{max}} item(s).",
        "tooShortObject" := "Too short, should contain at least {{min}} key(s).",
        "tooLongObject" := "Too long, should contain at most {{max}} key(s)."]
    case Number(_, _) => map[
        "invalid" := "Expected a number.",
        "tooSmall" := "Must be at least {{min}}.",
        "tooLarge" := "Must be at most {{max}}."]
    case Boolean(_, _) => map[DefaultKey := "Must be true or false."]
    case Regexp(_) => map[
        DefaultKey := "Does not match the required pattern.",
        "badType" := "Should be a text value."]
    case Range(_, _) => map[
        "between" := "Must be between {{start}} and {{stop}}.",
        "in" := "Not in the list of valid options."]
    case Url(_, _) => map[DefaultKey := "Not a valid URL."]
    case Email => map[DefaultKey := "Not a valid email address."]
    case Ip(_, _, _) => map[DefaultKey := "Not a valid IP address."]
    case Hostname => map[DefaultKey := "Not a valid hostname."]
    case DateString => map[DefaultKey := "Not a valid date."]
    case TimeString => map[DefaultKey := "Not a valid time."]
    case DateTimeString => map[DefaultKey := "Not a valid date / time."]
  }

  /** `this.allowEmpty && this.isEmpty(value)`: the short-circuit every
      validator but `required` starts with. */
  predicate Skips(v: Validator, value: JValue)
  {
    v.allowEmpty && IsEmpty(v.build, value)
  }

  /* ------------------------------------------------------------ required */

  function DecideRequired(v: Validator, value: JValue): (d: Verdict)
    requires v.kind.Required?
    ensures d == Valid <==> !IsEmpty(v.build, value)
    ensures d != Valid ==> d == Invalid(DefaultKey, Raw)
  {
    if IsEmpty(v.build, value) then Invalid(DefaultKey, Raw) else Valid
  }

  /* ---------------------------------------------------------------- type */

  /** `typeof value === type`, or the 'null' special case. */
  predicate TypeAccepts(t: string, value: JValue)
  {
    (t == "null" && value.Null?) || t == TypeOf(value)
  }

  /** 'null' accepts exactly null, since `typeof` never says "null"; and
      'object' accepts null too, since `typeof null` is "object". */
  lemma TypeAcceptsNull(value: JValue)
    ensures TypeAccepts("null", value) <==> value.Null?
    ensures TypeAccepts("object", Null)
    ensures TypeAccepts("object", value) <==> value.Null? || IsObjectLike(value)
  {
  }

  function DecideType(v: Validator, value: JValue): (d: Verdict)
    requires v.kind.TypeCheck?
    ensures d == Valid <==> Skips(v, value) || TypeAccepts(v.kind.expected, value)
    ensures d != Valid ==>
              d == Invalid(DefaultKey, Given(map["got" := Str(TypeOf(value)), "expected" := Str(v.kind.expected)]))
  {
    if Skips(v, value) then Valid
    else
      var expected := v.kind.expected;
      var got := TypeOf(value);
      if expected == "null" && value.Null? then Valid
      else if expected == got then Valid
      else Invalid(DefaultKey, Given(map["got" := Str(got), "expected" := Str(expected)]))
  }

  /* ---------------------------------------------------------- instanceOf */

  /** The `class` option passes both preconditions. */
  predicate ClassUsable(cls: JValue)
  {
    Truthy(cls) && (cls.Str? || cls.Fun?)
  }

  /** The `className` getter: the string itself or the function's `name`. */
  function ClassName(cls: JValue): string
  {
    match cls
    case Str(s) => s
    case Fun(c, _) => c.name
    case _ => ""
  }

  /** An object with a constructor that is, or is named like, the class. */
  predicate IsInstance(cls: JValue, value: JValue)
  {
    && IsObjectLike(value)
    && Constructor(value).Some?
    && (if cls.Fun? then InstanceOf(value, cls.fn) else Constructor(value).value.name == ClassName(cls))
  }

  /** What the failure message calls the value: 'null', its `typeof`, or
      its constructor's name. */
  function GotName(value: JValue): string
  {
    if value.Null? then "null"
    else if IsObjectLike(value) && Constructor(value).Some? then Constructor(value).value.name
    else TypeOf(value)
  }

  function DecideInstance(v: Validator, value: JValue): (d: Verdict)
    requires v.kind.InstanceCheck?
    ensures !Truthy(v.kind.cls) ==> d == Misconfigured(ClassNotSpecified)
    ensures Truthy(v.kind.cls) && !ClassUsable(v.kind.cls) ==> d == Misconfigured(ClassNotStringOrFunction)
    ensures ClassUsable(v.kind.cls) ==> (d == Valid <==> Skips(v, value) || IsInstance(v.kind.cls, value))
    ensures ClassUsable(v.kind.cls) && d != Valid ==>
              d == Invalid(DefaultKey, Given(map["expected" := Str(ClassName(v.kind.cls)), "got" := Str(GotName(value))]))
  {
    var cls := v.kind.cls;
    if !Truthy(cls) then Misconfigured(ClassNotSpecified)
    else if !(cls.Str? || cls.Fun?) then Misconfigured(ClassNotStringOrFunction)
    else if Skips(v, value) then Valid
    else
      var className := ClassName(cls);
      if !Truthy(value) || TypeOf(value) != "object" || Constructor(value).None? then
        Invalid(DefaultKey, Given(map["expected" := Str(className), "got" := Str(if value.Null? then "null" else TypeOf(value))]))
      else if cls.Fun? && InstanceOf(value, cls.fn) then Valid
      else if cls.Str? && Constructor(value).value.name == className then Valid
      else Invalid(DefaultKey, Given(map["expected" := Str(className), "got" := Str(Constructor(value).value.name)]))
  }

  /* -------------------------------------------------------------- length */

  /** A bound takes part only when it is truthy: missing and 0 are skipped. */
  predicate BoundSet(b: Option<int>)
  {
    b.Some? && b.value != 0
  }

  /** `n` respects every bound that is set; both are inclusive. */
  predicate Fits(n: int, lo: Option<int>, hi: Option<int>)
  {
    (!BoundSet(lo) || n >= lo.value) && (!BoundSet(hi) || n <= hi.value)
  }

  /** What the length validator measures: a string's length, an array's
      length, an object's own-key count; nothing for other values. */
  function Size(value: JValue): Option<nat>
  {
    match value
    case Str(s) => Some(|s|)
    case Arr(_, items) => Some(|items|)
    case Obj(_, fields, _) => Some(|fields.Keys|)
    case Date(_, _, _) => Some(0)
    case _ => None
  }

  /** The suffix of the message keys for each measured shape. */
  function SizeNoun(value: JValue): string
  {
    if value.Str? then "String" else if value.Arr? then "Array" else "Object"
  }

  /** `validateString`, `validateArray` and `validateObject`, which differ
      only in what they measure and which messages they use. */
  function Measure(n: nat, noun: string, lo: Option<int>, hi: Option<int>): (d: Verdict)
    ensures d == Valid <==> Fits(n, lo, hi)
    ensures BoundSet(lo) && n < lo.value ==> d == Invalid("tooShort" + noun, Own)
    ensures !(BoundSet(lo) && n < lo.value) && !Fits(n, lo, hi) ==> d == Invalid("tooLong" + noun, Own)
  {
    if BoundSet(lo) && n < lo.value then Invalid("tooShort" + noun, Own)
    else if BoundSet(hi) && n > hi.value then Invalid("tooLong" + noun, Own)
    else Valid
  }

  function DecideLength(v: Validator, value: JValue): (d: Verdict)
    requires v.kind.Length?
    ensures !BoundSet(v.kind.min) && !BoundSet(v.kind.max) ==> d == Misconfigured(NoLengthConstraints)
    ensures BoundSet(v.kind.min) || BoundSet(v.kind.max) ==>
              (d == Valid <==> Skips(v, value) || (Size(value).Some? && Fits(Size(value).value, v.kind.min, v.kind.max)))
    ensures (BoundSet(v.kind.min) || BoundSet(v.kind.max)) && !Skips(v, value) && Size(value).None? ==>
              d == Invalid("invalid", Raw)
    ensures (BoundSet(v.kind.min) || BoundSet(v.kind.max)) && !Skips(v, value) && Size(value).Some? && d != Valid ==>
              d == Invalid((if BoundSet(v.kind.min) && Size(value).value < v.kind.min.value then "tooShort" else "tooLong")
                           + SizeNoun(value), Own)
  {
    var lo := v.kind.min;
    var hi := v.kind.max;
    if !(BoundSet(lo) || BoundSet(hi)) then Misconfigured(NoLengthConstraints)
    else if Skips(v, value) then Valid
    else
      match value
      case Str(s) => Measure(|s|, "String", lo, hi)
      case Arr(_, items) => Measure(|items|, "Array", lo, hi)
      case Obj(_, fields, _) => Measure(|fields.Keys|, "Object", lo, hi)
      case Date(_, _, _) => Measure(0, "Object", lo, hi)
      case _ => Invalid("invalid", Raw)
  }

  /* -------------------------------------------------------------- number */

  function DecideNumber(v: Validator, value: JValue): (d: Verdict)
    requires v.kind.Number?
    ensures d == Valid <==> Skips(v, value) || (value.Num? && Fits(value.n, v.kind.min, v.kind.max))
    ensures !Skips(v, value) && !value.Num? ==> d == Invalid("invalid", Raw)
    ensures !Skips(v, value) && value.Num? && d != Valid ==>
              d == Invalid(if BoundSet(v.kind.min) && value.n < v.kind.min.value then "tooSmall" else "tooLarge", Own)
  {
    var lo := v.kind.min;
    var hi := v.kind.max;
    if Skips(v, value) then Valid
    else if !value.Num? then Invalid("invalid", Raw)
    else if BoundSet(lo) && value.n < lo.value then Invalid("tooSmall", Own)
    else if BoundSet(hi) && value.n > hi.value then Invalid("tooLarge", Own)
    else Valid
  }

  /* ------------------------------------------------------------- boolean */

  function DecideBoolean(v: Validator, value: JValue): (d: Verdict)
    requires v.kind.Boolean?
    ensures d == Valid <==> Skips(v, value) || StrictIn(value, v.kind.trueValues) || StrictIn(value, v.kind.falseValues)
    ensures d != Valid ==> d == Invalid(DefaultKey, Raw)
  {
    if Skips(v, value) then Valid
    else if StrictIn(value, v.kind.trueValues) then Valid
    else if StrictIn(value, v.kind.falseValues) then Valid
    else Invalid(DefaultKey, Raw)
  }

  /* -------------------------------------------------------------- regexp */

  /** `this.pattern.test(s)`; the unset pattern is `new RegExp()`, which
      matches every string. */
  predicate PatternAccepts(pattern: Option<string -> bool>, s: string)
  {
    match pattern
    case None => true
    case Some(p) => p(s)
  }

  function DecideRegexp(v: Validator, value: JValue): (d: Verdict)
    requires v.kind.Regexp?
    ensures d == Valid <==> Skips(v, value) || (value.Str? && PatternAccepts(v.kind.pattern, value.s))
    ensures !Skips(v, value) && !value.Str? ==> d == Invalid("badType", Own)
    ensures !Skips(v, value) && value.Str? && d != Valid ==> d == Invalid(DefaultKey, Own)
  {
    if Skips(v, value) then Valid
    else if !value.Str? then Invalid("badType", Own)
    else if PatternAccepts(v.kind.pattern, value.s) then Valid
    else Invalid(DefaultKey, Own)
  }

  /* --------------------------------------------------------------- range */

  /** `Array.isArray(between) && between.length === 2`. */
  predicate IsPair(b: JValue)
  {
    b.Arr? && |b.items| == 2
  }

  function DecideRange(v: Validator, value: JValue): (d: Verdict)
    requires v.kind.Range?
    ensures Skips(v, value) ==> d == Valid
    ensures !Skips(v, value) && Truthy(v.kind.between) && !IsPair(v.kind.between) ==> d == Misconfigured(BetweenNotPair)
    ensures !Skips(v, value) && IsPair(v.kind.between) ==>
              var b := v.kind.between.items;
              && (d == Valid <==> AtLeast(value, b[0]) && AtMost(value, b[1]))
              && (d != Valid ==> d == Invalid("between", Given(map["start" := b[0], "stop" := b[1]])))
    ensures !Skips(v, value) && !Truthy(v.kind.between) && Truthy(v.kind.inList) && !v.kind.inList.Arr? ==>
              d == Misconfigured(InNotArray)
    ensures !Skips(v, value) && !Truthy(v.kind.between) && v.kind.inList.Arr? ==>
              && (d == Valid <==> StrictIn(value, v.kind.inList.items))
              && (d != Valid ==> d == Invalid("in", Own))
    ensures !Truthy(v.kind.between) && !Truthy(v.kind.inList) ==> d == Valid
  {
    var between := v.kind.between;
    var inList := v.kind.inList;
    if Skips(v, value) then Valid
    else if Truthy(between) then
      if !IsPair(between) then Misconfigured(BetweenNotPair)
      else if AtLeast(value, between.items[0]) && AtMost(value, between.items[1]) then Valid
      else Invalid("between", Given(map["start" := between.items[0], "stop" := between.items[1]]))
    else if Truthy(inList) then
      if !inList.Arr? then Misconfigured(InNotArray)
      else if StrictIn(value, inList.items) then Valid
      else Invalid("in", Own)
    else Valid
  }

  /* ----------------------------------------------------------------- url */

  /** Some scheme alternative, then `://`, then a dotted host, at the start. */
  predicate SchemeMatches(schemes: seq<string>, s: string)
  {
    exists k :: 0 <= k < |SchemeAlternatives(schemes)| && SchemeThenHost(SchemeAlternatives(schemes)[k], s)
  }

  function DecideUrl(v: Validator, value: JValue): (d: Verdict)
    requires v.kind.Url?
    ensures d == Valid <==>
              || Skips(v, value)
              || SchemeMatches(v.kind.schemes, ToStr(value))
              || (!v.kind.strict && HasHostPrefix(ToStr(value)))
    ensures d != Valid ==> d == Invalid(DefaultKey, Own)
  {
    if Skips(v, value) then Valid
    else
      match UrlExec(v.kind.schemes, ToStr(value))
      case NoMatch => Invalid(DefaultKey, Own)
      case Matched(withScheme) => if v.kind.strict && !withScheme then Invalid(DefaultKey, Own) else Valid
  }

  /* --------------------------------------------------------------- email */

  function DecideEmail(v: Validator, value: JValue): (d: Verdict)
    requires v.kind.Email?
    ensures d == Valid <==> Skips(v, value) || EmailMatch(ToStr(value))
    ensures d != Valid ==> d == Invalid(DefaultKey, Own)
  {
    if Skips(v, value) then Valid
    else if EmailMatch(ToStr(value)) then Valid
    else Invalid(DefaultKey, Own)
  }

  /* ------------------------------------------------------------------ ip */

  function DecideIp(v: Validator, value: JValue): (d: Verdict)
    requires v.kind.Ip?
    ensures d == Valid <==>
              || Skips(v, value)
              || (v.kind.v4 && IPv4Match(ToStr(value)))
              || (v.kind.v6 && v.kind.v6Pattern(ToStr(value)))
    ensures d != Valid ==> d == Invalid(DefaultKey, Own)
  {
    if Skips(v, value) then Valid
    else if v.kind.v4 && IPv4Match(ToStr(value)) then Valid
    else if v.kind.v6 && v.kind.v6Pattern(ToStr(value)) then Valid
    else Invalid(DefaultKey, Own)
  }

  /* ------------------------------------------------------------ hostname */

  function DecideHostname(v: Validator, value: JValue): (d: Verdict)
    requires v.kind.Hostname?
    ensures d == Valid <==>
              Skips(v, value) || (0 < |ToStr(value)| <= 255 && HostnameMatch(ToStr(value)))
    ensures d != Valid ==> d == Invalid(DefaultKey, Own)
  {
    if Skips(v, value) then Valid
    else
      var s := ToStr(value);
      if 0 < |s| <= 255 && HostnameMatch(s) then Valid else Invalid(DefaultKey, Own)
  }

  /* ------------------------------------------------ date, time, datetime */

  function DecideDate(v: Validator, value: JValue): (d: Verdict)
    requires v.kind.DateString?
    ensures d == Valid <==> Skips(v, value) || InstanceOf(value, DateClass) || DateMatch(ToStr(value))
    ensures d != Valid ==> d == Invalid(DefaultKey, Own)
  {
    if Skips(v, value) then Valid
    else if InstanceOf(value, DateClass) then Valid
    else if DateMatch(ToStr(value)) then Valid
    else Invalid(DefaultKey, Own)
  }

  function DecideTime(v: Validator, value: JValue): (d: Verdict)
    requires v.kind.TimeString?
    ensures d == Valid <==> Skips(v, value) || InstanceOf(value, DateClass) || TimeMatch(ToStr(value))
    ensures d != Valid ==> d == Invalid(DefaultKey, Own)
  {
    if Skips(v, value) then Valid
    else if InstanceOf(value, DateClass) then Valid
    else if TimeMatch(ToStr(value)) then Valid
    else Invalid(DefaultKey, Own)
  }

  function DecideDateTime(v: Validator, value: JValue): (d: Verdict)
    requires v.kind.DateTimeString?
    ensures d == Valid <==> Skips(v, value) || InstanceOf(value, DateClass) || DateTimeMatch(ToStr(value))
    ensures d != Valid ==> d == Invalid(DefaultKey, Own)
  {
    if Skips(v, value) then Valid
    else if InstanceOf(value, DateClass) then Valid
    else if DateTimeMatch(ToStr(value)) then Valid
    else Invalid(DefaultKey, Own)
  }

  /* ----------------------------------------------------------- dispatch */

  /** A catalog validator, as opposed to the bare base class or a
      validator whose `validate` is a user function. */
  predicate IsCatalog(k: Kind)
  {
    !k.Base? && !k.Custom?
  }

  function Decide(v: Validator, value: JValue): (d: Verdict)
    requires IsCatalog(v.kind)
  {
    match v.kind
    case Required => DecideRequired(v, value)
    case TypeCheck(_) => DecideType(v, value)
    case InstanceCheck(_) => DecideInstance(v, value)
    case Length(_, _) => DecideLength(v, value)
    case Number(_, _) => DecideNumber(v, value)
    case Boolean(_, _) => DecideBoolean(v, value)
    case Regexp(_) => DecideRegexp(v, value)
    case Range(_, _) => DecideRange(v, value)
    case Url(_, _) => DecideUrl(v, value)
    case Email => DecideEmail(v, value)
    case Ip(_, _, _) => DecideIp(v, value)
    case Hostname => DecideHostname(v, value)
    case DateString => DecideDate(v, value)
    case TimeString => DecideTime(v, value)
    case DateTimeString => DecideDateTime(v, value)
  }

  /** `validator.validate(value)`: `true` (Pass), anything else (Fail), or a
      thrown precondition error (Err). The base class passes everything; a
      user function's return value is taken as is. */
  function Validate(v: Validator, value: JValue): (r: Result<Outcome>)
    ensures v.kind.Base? ==> r == Ok(Pass)
    ensures v.kind.Custom? ==> r == Ok(OutcomeOf(v.kind.check(value)))
    ensures IsCatalog(v.kind) ==> (r == Ok(Pass) <==> Decide(v, value) == Valid)
  {
    match v.kind
    case Base => Ok(Pass)
    case Custom(f) => Ok(OutcomeOf(f(value)))
    case _ => Respond(v, Decide(v, value))
  }

  /** A catalog validator's answer is its verdict, worded. */
  lemma ValidateResponds(v: Validator, value: JValue)
    requires IsCatalog(v.kind)
    ensures Validate(v, value) == Respond(v, Decide(v, value))
  {
  }

  /* ----------------------------------------------------- shared properties */

  /** Configuration a validator checks on every call, before anything else. */
  predicate Usable(k: Kind)
  {
    match k
    case InstanceCheck(cls) => ClassUsable(cls)
    case Length(lo, hi) => BoundSet(lo) || BoundSet(hi)
    case _ => true
  }

  /** With `allowEmpty` set, every catalog validator but `required` passes
      an empty value, once its call-time preconditions hold. */
  lemma AllowEmptyPasses(v: Validator, value: JValue)
    requires IsCatalog(v.kind) && !v.kind.Required? && Usable(v.kind)
    requires v.allowEmpty && IsEmpty(v.build, value)
    ensures Validate(v, value) == Ok(Pass)
  {
  }

  /** `required` ignores `allowEmpty`: it fails exactly the empty values,
      whatever the flag says. (Only a message naming `{{allowEmpty}}`
      would read the flag.) */
  lemma RequiredIgnoresAllowEmpty(v: Validator, value: JValue, allow: bool)
    requires v.kind.Required?
    ensures Decide(v.(allowEmpty := allow), value) == Decide(v, value)
    ensures Validate(v.(allowEmpty := allow), value) == Ok(Pass) <==> !IsEmpty(v.build, value)
    ensures Validate(v, value) == Ok(Pass) <==> !IsEmpty(v.build, value)
  {
  }

  /** The instanceOf and length preconditions are checked before the
      `allowEmpty` short-circuit, so a misconfigured validator throws
      even for an empty value. */
  lemma PreconditionsPrecedeAllowEmpty(v: Validator, value: JValue)
    requires v.kind.InstanceCheck? || v.kind.Length?
    requires !Usable(v.kind)
    ensures Validate(v, value).Err?
    ensures Validate(v, value) == Validate(v.(allowEmpty := true), Null)
  {
  }

  /** A failing catalog validator never passes and, with messages that
      exist and hold no tokens, returns exactly its message. */
  lemma PlainMessageReturned(v: Validator, value: JValue)
    requires IsCatalog(v.kind)
    requires Decide(v, value).Invalid?
    requires Decide(v, value).key in v.messages && !HasToken(v.messages[Decide(v, value).key])
    ensures Validate(v, value) == Ok(Fail(Str(v.messages[Decide(v, value).key])))
  {
  }
}

=== FILE: compiler.dfy ===
/** The descriptor compiler: `forDescriptor` and `forDescriptors`
    (src/index.js:44-130), the lib copy that visits field names in sorted
    order and returns the validated object (lib/index.js:38-90), and the
    dist copy that inlines every field (dist/validating.js:39-71).

    The source generates JavaScript with `new Function`; here the
    generated code is interpreted directly. Compiling resolves every rule
    once, in declared order; running a field tries its validators in
    order and stops at the first one that does not return `true`, because
    the generated `if` blocks are joined with `else`.
 */
module Compiler {
  import opened Results
  import opened JsValues
  import opened Text
  import opened ValidatorBase
  import opened Catalog
  import opened Registry
  import opened Resolver

  /** A descriptor's `rules`: falsy, an array, or some other truthy value. */
  datatype Rules = NoRules | RuleList(specs: seq<RuleSpec>) | NotAList

  /** One value of the descriptors object: an object with its `rules`, a
      primitive (which has no `rules`), or null/undefined. */
  datatype Descriptor = Descriptor(rules: Rules) | NonObject | Nullish

  /** The three copies of the compiler. */
  datatype Copy = SrcIndex | LibIndex | DistBundle

  /* ------------------------------------------------------------- one field */

  /** `processRule` as the copy defines it. */
  function Resolve(reg: Registry, dist: bool, rule: RuleSpec): Result<Validator>
  {
    if dist then ProcessRuleDist(reg, rule) else ProcessRule(reg, rule)
  }

  /** `rules.map(processRule)`: every rule resolved in order; the first
      failure is the one thrown. */
  function ResolveAll(reg: Registry, dist: bool, rules: seq<RuleSpec>): (r: Result<seq<Validator>>)
    ensures r.Ok? <==> forall i :: 0 <= i < |rules| ==> Resolve(reg, dist, rules[i]).Ok?
    ensures r.Ok? ==> |r.value| == |rules| && forall i :: 0 <= i < |rules| ==> r.value[i] == Resolve(reg, dist, rules[i]).value
    ensures r.Err? ==> FirstFailure(reg, dist, rules, r.error)
  {
    if |rules| == 0 then Ok([])
    else
      var head :- Resolve(reg, dist, rules[0]);
      var rest := ResolveAll(reg, dist, rules[1..]);
      if rest.Err? then
        FailureShifts(reg, dist, rules, rest.error);
        Err(rest.error)
      else
        ResolvedShifts(reg, dist, rules, head, rest.value);
        Ok([head] + rest.value)
  }

  /** Some rule fails with `e` and every rule before it resolves. */
  predicate FirstFailure(reg: Registry, dist: bool, rules: seq<RuleSpec>, e: ConfigError)
  {
    exists i :: 0 <= i < |rules| && Resolve(reg, dist, rules[i]) == Err(e)
              && forall j :: 0 <= j < i ==> Resolve(reg, dist, rules[j]).Ok?
  }

  lemma FailureShifts(reg: Registry, dist: bool, rules: seq<RuleSpec>, e: ConfigError)
    requires |rules| > 0 && Resolve(reg, dist, rules[0]).Ok?
    requires FirstFailure(reg, dist, rules[1..], e)
    ensures FirstFailure(reg, dist, rules, e)
  {
    var i :| 0 <= i < |rules[1..]| && Resolve(reg, dist, rules[1..][i]) == Err(e)
             && forall j :: 0 <= j < i ==> Resolve(reg, dist, rules[1..][j]).Ok?;
    assert Resolve(reg, dist, rules[i + 1]) == Err(e);
    forall j | 0 <= j < i + 1 ensures Resolve(reg, dist, rules[j]).Ok? {
      if j > 0 {
        assert rules[j] == rules[1..][j - 1];
      }
    }
  }

  lemma ResolvedShifts(reg: Registry, dist: bool, rules: seq<RuleSpec>, head: Validator, rest: seq<Validator>)
    requires |rules| > 0 && Resolve(reg, dist, rules[0]) == Ok(head)
    requires |rest| == |rules| - 1
    requires forall i :: 0 <= i < |rest| ==> Resolve(reg, dist, rules[1..][i]).Ok? && rest[i] == Resolve(reg, dist, rules[1..][i]).value
    ensures forall i :: 0 <= i < |rules| ==> Resolve(reg, dist, rules[i]).Ok? && ([head] + rest)[i] == Resolve(reg, dist, rules[i]).value
  {
    forall i | 0 <= i < |rules| ensures Resolve(reg, dist, rules[i]).Ok? && ([head] + rest)[i] == Resolve(reg, dist, rules[i]).value {
      if i > 0 {
        assert rules[i] == rules[1..][i - 1];
        assert ([head] + rest)[i] == rest[i - 1];
      }
    }
  }

  /** What one field's compiled function returns: `{valid, error}`. */
  datatype FieldResult = FieldResult(valid: bool, error: JValue)

  /** Every validator before position `i` accepts the value. */
  predicate PassBefore(vs: seq<Validator>, i: int, value: JValue)
    requires 0 <= i <= |vs|
  {
    forall j :: 0 <= j < i ==> Validate(vs[j], value) == Ok(Pass)
  }

  /** The compiled function of one field: the validators in order, the
      first that does not return `true` setting `error` and ending the
      chain; a thrown precondition error propagates. */
  function RunField(vs: seq<Validator>, value: JValue): (r: Result<FieldResult>)
    ensures r == Ok(FieldResult(true, Undefined)) <==> PassBefore(vs, |vs|, value)
    ensures r.Ok? ==> r.value.valid ==> r.value.error == Undefined
    ensures r.Ok? && !r.value.valid ==>
              exists i :: 0 <= i < |vs| && PassBefore(vs, i, value) && Validate(vs[i], value) == Ok(Fail(r.value.error))
    ensures r.Err? ==>
              exists i :: 0 <= i < |vs| && PassBefore(vs, i, value) && Validate(vs[i], value) == Err(r.error)
  {
    if |vs| == 0 then Ok(FieldResult(true, Undefined))
    else
      var outcome := Validate(vs[0], value);
      if outcome.Err? then
        assert PassBefore(vs, 0, value);
        Err(outcome.error)
      else if outcome.value.Fail? then
        assert PassBefore(vs, 0, value);
        Ok(FieldResult(false, outcome.value.error))
      else
        var rest := RunField(vs[1..], value);
        assert forall j :: 1 <= j < |vs| ==> vs[j] == vs[1..][j - 1];
        assert PassBefore(vs, |vs|, value) <==> PassBefore(vs[1..], |vs| - 1, value);
        assert rest.Ok? && !rest.value.valid ==>
                 exists i :: 0 <= i < |vs| && PassBefore(vs, i, value) && Validate(vs[i], value) == Ok(Fail(rest.value.error)) by {
          if rest.Ok? && !rest.value.valid {
            var i :| 0 <= i < |vs[1..]| && PassBefore(vs[1..], i, value) && Validate(vs[1..][i], value) == Ok(Fail(rest.value.error));
            assert PassBefore(vs, i + 1, value);
          }
        }
        assert rest.Err? ==>
                 exists i :: 0 <= i < |vs| && PassBefore(vs, i, value) && Validate(vs[i], value) == Err(rest.error) by {
          if rest.Err? {
            var i :| 0 <= i < |vs[1..]| && PassBefore(vs[1..], i, value) && Validate(vs[1..][i], value) == Err(rest.error);
            assert PassBefore(vs, i + 1, value);
          }
        }
        rest
  }

  /** A field's first validator rejecting the value decides the field. */
  lemma FirstRuleFails(vs: seq<Validator>, value: JValue, e: JValue)
    requires |vs| > 0 && Validate(vs[0], value) == Ok(Fail(e))
    ensures RunField(vs, value) == Ok(FieldResult(false, e))
  {
  }

  /** A field's first validator accepting the value hands over to the rest. */
  lemma FirstRulePasses(vs: seq<Validator>, value: JValue)
    requires |vs| > 0 && Validate(vs[0], value) == Ok(Pass)
    ensures RunField(vs, value) == RunField(vs[1..], value)
  {
  }

  /** Once a field's chain has stopped, rules appended after it never run:
      the field reports the same result. */
  lemma {:induction false} LaterRulesNotRun(vs: seq<Validator>, extra: seq<Validator>, value: JValue)
    requires RunField(vs, value) != Ok(FieldResult(true, Undefined))
    ensures RunField(vs + extra, value) == RunField(vs, value)
  {
    assert |vs| > 0;
    AppendSplit(vs, extra);
    if Validate(vs[0], value) == Ok(Pass) {
      FirstRulePasses(vs, value);
      LaterRulesNotRun(vs[1..], extra, value);
      FirstRulePasses(vs + extra, value);
    } else {
      SameHeadStops(vs, vs + extra, value);
    }
  }

  lemma AppendSplit<T>(s: seq<T>, t: seq<T>)
    requires |s| > 0
    ensures (s + t)[0] == s[0] && (s + t)[1..] == s[1..] + t
  {
  }

  /** Chains that start with the same stopping validator report alike. */
  lemma SameHeadStops(a: seq<Validator>, b: seq<Validator>, value: JValue)
    requires |a| > 0 && |b| > 0 && a[0] == b[0] && Validate(a[0], value) != Ok(Pass)
    ensures RunField(a, value) == RunField(b, value)
  {
  }

  /** Rules that all pass hand the decision to the rules after them. */
  lemma {:induction false} PassingRulesDefer(vs: seq<Validator>, extra: seq<Validator>, value: JValue)
    requires RunField(vs, value) == Ok(FieldResult(true, Undefined))
    ensures RunField(vs + extra, value) == RunField(extra, value)
  {
    if |vs| == 0 {
      assert vs + extra == extra;
    } else {
      AppendSplit(vs, extra);
      assert Validate(vs[0], value) == Ok(Pass);
      PassingRulesDefer(vs[1..], extra, value);
    }
  }

  /** `forDescriptor(name, descriptor)`: the compiled field function, or
      null (`None`) when `rules` is not an array. */
  function ForDescriptor(reg: Registry, name: string, d: Descriptor): (r: Result<Option<seq<Validator>>>)
    ensures name == "" ==> r == Err(FieldNameNotSpecified)
    ensures name != "" && !d.Descriptor? ==> r == Err(DescriptorNotObject)
    ensures name != "" && d.Descriptor? && !d.rules.RuleList? ==> r == Ok(None)
    ensures name != "" && d.Descriptor? && d.rules.RuleList? ==>
              (r.Ok? <==> forall i :: 0 <= i < |d.rules.specs| ==> ProcessRule(reg, d.rules.specs[i]).Ok?)
    ensures r.Ok? && r.value.Some? ==>
              d.Descriptor? && d.rules.RuleList? && |r.value.value| == |d.rules.specs|
              && forall i :: 0 <= i < |d.rules.specs| ==> r.value.value[i] == ProcessRule(reg, d.rules.specs[i]).value
  {
    if name == "" then Err(FieldNameNotSpecified)
    else if !d.Descriptor? then Err(DescriptorNotObject)
    else if !d.rules.RuleList? then Ok(None)
    else
      var vs :- ResolveAll(reg, false, d.rules.specs);
      Ok(Some(vs))
  }

  /** A field whose rules list is empty is valid with no error. */
  lemma EmptyRulesValid(reg: Registry, name: string, value: JValue)
    requires name != ""
    ensures ForDescriptor(reg, name, Descriptor(RuleList([]))) == Ok(Some([]))
    ensures RunField([], value) == Ok(FieldResult(true, Undefined))
  {
  }

  /* ------------------------------------------------------------ the schema */

  /** The descriptors object: its keys in `Object.keys` order and the
      descriptor under each. */
  datatype SchemaArg = SchemaObject(keys: seq<string>, entries: map<string, Descriptor>) | NotAnObject

  /** `descriptors[name]`; a key without an entry reads `undefined`. */
  function DescriptorAt(entries: map<string, Descriptor>, key: string): Descriptor
  {
    if key in entries then entries[key] else Nullish
  }

  /** A field the schema function checks: its name and its compiled
      function, or null where `forDescriptor` returned null. */
  datatype CompiledField = CompiledField(name: string, check: Option<seq<Validator>>)

  /** The loop body of `forDescriptors` for one key: fields whose `rules`
      is falsy are skipped and never reported. The dist copy also emits no
      line for an empty rule array, so such a field never reads the object;
      the src and lib copies still emit a call that does. */
  function CompileField(reg: Registry, copy: Copy, key: string, d: Descriptor): (r: Result<Option<CompiledField>>)
    ensures d.Nullish? ==> r == Err(DescriptorMissing(key))
    ensures d.NonObject? || (d.Descriptor? && d.rules.NoRules?) ==> r == Ok(None)
    ensures r.Ok? && r.value.Some? ==> r.value.value.name == key && d.Descriptor? && !d.rules.NoRules?
    ensures copy != DistBundle && d.Descriptor? && d.rules.NotAList? && key != "" ==>
              r == Ok(Some(CompiledField(key, None)))
    ensures copy == DistBundle && d.Descriptor? && d.rules.NotAList? ==> r == Err(RulesNotArray(key))
    ensures copy == DistBundle && d == Descriptor(RuleList([])) ==> r == Ok(None)
    ensures copy != DistBundle && d == Descriptor(RuleList([])) && key != "" ==>
              r == Ok(Some(CompiledField(key, Some([]))))
  {
    match d
    case Nullish => Err(DescriptorMissing(key))
    case NonObject => Ok(None)
    case Descriptor(rules) =>
      if rules.NoRules? then Ok(None)
      else if copy == DistBundle then
        if rules.NotAList? then Err(RulesNotArray(key))
        else
          var vs :- ResolveAll(reg, true, rules.specs);
          if |vs| == 0 then Ok(None) else Ok(Some(CompiledField(key, Some(vs))))
      else
        var check :- ForDescriptor(reg, key, d);
        Ok(Some(CompiledField(key, check)))
  }

  /** The fields compiled for the keys, in key order; the first
      compile-time error is the one thrown. */
  function CompileSchema(reg: Registry, copy: Copy, keys: seq<string>, entries: map<string, Descriptor>): Result<seq<CompiledField>>
  {
    if |keys| == 0 then Ok([])
    else
      var head :- CompileField(reg, copy, keys[0], DescriptorAt(entries, keys[0]));
      var rest :- CompileSchema(reg, copy, keys[1..], entries);
      Ok((if head.Some? then [head.value] else []) + rest)
  }

  /** `forDescriptors(descriptors)`; the lib copy sorts the keys first. */
  function ForDescriptors(reg: Registry, copy: Copy, arg: SchemaArg): (r: Result<seq<CompiledField>>)
    ensures arg.NotAnObject? ==> r == Err(DescriptorsNotObject)
  {
    match arg
    case NotAnObject => Err(DescriptorsNotObject)
    case SchemaObject(keys, entries) =>
      CompileSchema(reg, copy, if copy == LibIndex then SortNames(keys) else keys, entries)
  }

  /** One line of the generated schema function:
      `validators.name(obj.name)`. Reading a field of null or undefined
      throws, and so does calling the null a non-array `rules` compiled to. */
  function RunCompiled(f: CompiledField, obj: JValue): (r: Result<FieldResult>)
    ensures (obj.Undefined? || obj.Null?) ==> r == Err(ReadOfNullish(f.name))
    ensures !(obj.Undefined? || obj.Null?) && f.check.None? ==> r == Err(NotAFunction(f.name))
    ensures !(obj.Undefined? || obj.Null?) && f.check.Some? ==> r == RunField(f.check.value, Get(obj, f.name))
  {
    if obj.Undefined? || obj.Null? then Err(ReadOfNullish(f.name))
    else if f.check.None? then Err(NotAFunction(f.name))
    else RunField(f.check.value, Get(obj, f.name))
  }

  datatype FieldError = FieldError(field: string, error: JValue)

  /** `{valid, errors}`, with `errors` as the assignments to it in order. */
  datatype SchemaResult = SchemaResult(valid: bool, errors: seq<FieldError>)

  /** The `errors` object the assignments build: a later assignment to the
      same name overwrites an earlier one. */
  function ErrorMap(errors: seq<FieldError>): map<string, JValue>
  {
    if |errors| == 0 then map[] else map[errors[0].field := errors[0].error] + ErrorMap(errors[1..])
  }

  /** The generated schema function: each compiled field in order. */
  function RunSchema(cs: seq<CompiledField>, obj: JValue): Result<SchemaResult>
  {
    if |cs| == 0 then Ok(SchemaResult(true, []))
    else
      var head :- RunCompiled(cs[0], obj);
      var rest :- RunSchema(cs[1..], obj);
      Ok(SchemaResult(head.valid && rest.valid,
                      (if head.valid then [] else [FieldError(cs[0].name, head.error)]) + rest.errors))
  }

  /** A schema of two fields that both run: their errors in field order. */
  lemma RunTwoFields(c1: CompiledField, c2: CompiledField, obj: JValue)
    requires RunCompiled(c1, obj).Ok? && RunCompiled(c2, obj).Ok?
    ensures var r1 := RunCompiled(c1, obj).value;
            var r2 := RunCompiled(c2, obj).value;
            RunSchema([c1, c2], obj)
            == Ok(SchemaResult(r1.valid && r2.valid,
                               (if r1.valid then [] else [FieldError(c1.name, r1.error)])
                               + (if r2.valid then [] else [FieldError(c2.name, r2.error)])))
  {
    var r1 := RunCompiled(c1, obj).value;
    var r2 := RunCompiled(c2, obj).value;
    var e1 := if r1.valid then [] else [FieldError(c1.name, r1.error)];
    var e2 := if r2.valid then [] else [FieldError(c2.name, r2.error)];
    assert [c2][0] == c2 && [c2][1..] == [];
    assert RunSchema([], obj) == Ok(SchemaResult(true, []));
    assert e2 + [] == e2;
    assert RunSchema([c2], obj) == Ok(SchemaResult(r2.valid, e2));
    assert [c1, c2][0] == c1 && [c1, c2][1..] == [c2];
    assert RunSchema([c1, c2], obj) == Ok(SchemaResult(r1.valid && r2.valid, e1 + e2));
  }

  /** Compiling and then calling the schema function. */
  function Pipeline(reg: Registry, copy: Copy, arg: SchemaArg, obj: JValue): Result<SchemaResult>
  {
    var cs :- ForDescriptors(reg, copy, arg);
    RunSchema(cs, obj)
  }

  /** The lib copy's result also carries the object it validated. */
  datatype LibResult = LibResult(valid: bool, value: JValue, errors: seq<FieldError>)

  function RunSchemaLib(cs: seq<CompiledField>, obj: JValue): (r: Result<LibResult>)
    ensures r.Ok? <==> RunSchema(cs, obj).Ok?
    ensures r.Ok? ==> r.value.value == obj
    ensures r.Ok? ==> r.value.valid == RunSchema(cs, obj).value.valid && r.value.errors == RunSchema(cs, obj).value.errors
  {
    var result :- RunSchema(cs, obj);
    Ok(LibResult(result.valid, obj, result.errors))
  }

  /* ------------------------------------------------------- key-wise view */

  /** Compiling the schema for `keys` and calling it on `obj`. */
  function SchemaRun(reg: Registry, copy: Copy, keys: seq<string>, entries: map<string, Descriptor>, obj: JValue): Result<SchemaResult>
  {
    var cs :- CompileSchema(reg, copy, keys, entries);
    RunSchema(cs, obj)
  }

  /** What one key contributes, compiled and run on its own: nothing (no
      rules), a field result, or an error. */
  function KeyResult(reg: Registry, copy: Copy, entries: map<string, Descriptor>, key: string, obj: JValue): Result<Option<FieldResult>>
  {
    var c :- CompileField(reg, copy, key, DescriptorAt(entries, key));
    if c.None? then Ok(None)
    else
      var r :- RunCompiled(c.value, obj);
      Ok(Some(r))
  }

  /** `KeyResult` for every key at once. */
  function KeyResults(reg: Registry, copy: Copy, entries: map<string, Descriptor>, obj: JValue): string -> Result<Option<FieldResult>>
  {
    key => KeyResult(reg, copy, entries, key, obj)
  }

  predicate KeyFails(kr: Result<Option<FieldResult>>)
  {
    kr.Ok? && kr.value.Some? && !kr.value.value.valid
  }

  predicate AllKeysOk(keys: seq<string>, kr: string -> Result<Option<FieldResult>>)
  {
    forall i :: 0 <= i < |keys| ==> kr(keys[i]).Ok?
  }

  predicate NoKeyFails(keys: seq<string>, kr: string -> Result<Option<FieldResult>>)
  {
    forall i :: 0 <= i < |keys| ==> !KeyFails(kr(keys[i]))
  }

  /** The failing keys and their errors. */
  function FailingErrors(keys: seq<string>, kr: string -> Result<Option<FieldResult>>): map<string, JValue>
  {
    map k | k in keys && KeyFails(kr(k)) :: kr(k).value.value.error
  }

  lemma KeysStep(keys: seq<string>, kr: string -> Result<Option<FieldResult>>)
    requires |keys| > 0
    ensures AllKeysOk(keys, kr) <==> kr(keys[0]).Ok? && AllKeysOk(keys[1..], kr)
    ensures NoKeyFails(keys, kr) <==> !KeyFails(kr(keys[0])) && NoKeyFails(keys[1..], kr)
    ensures FailingErrors(keys, kr) ==
            if KeyFails(kr(keys[0])) then map[keys[0] := kr(keys[0]).value.value.error] + FailingErrors(keys[1..], kr)
            else FailingErrors(keys[1..], kr)
  {
    assert forall i :: 1 <= i < |keys| ==> keys[i] == keys[1..][i - 1];
    assert forall k :: k in keys <==> k == keys[0] || k in keys[1..] by {
      assert keys == [keys[0]] + keys[1..];
    }
  }

  /** Only which keys are present matters, not their order or repetition. */
  lemma SameKeys(keys1: seq<string>, keys2: seq<string>, kr: string -> Result<Option<FieldResult>>)
    requires forall k :: k in keys1 <==> k in keys2
    ensures AllKeysOk(keys1, kr) <==> AllKeysOk(keys2, kr)
    ensures NoKeyFails(keys1, kr) <==> NoKeyFails(keys2, kr)
    ensures FailingErrors(keys1, kr) == FailingErrors(keys2, kr)
  {
    if AllKeysOk(keys1, kr) {
      forall i | 0 <= i < |keys2| ensures kr(keys2[i]).Ok? {
        assert keys2[i] in keys1;
      }
    }
    if AllKeysOk(keys2, kr) {
      forall i | 0 <= i < |keys1| ensures kr(keys1[i]).Ok? {
        assert keys1[i] in keys2;
      }
    }
    if NoKeyFails(keys1, kr) {
      forall i | 0 <= i < |keys2| ensures !KeyFails(kr(keys2[i])) {
        assert keys2[i] in keys1;
      }
    }
    if NoKeyFails(keys2, kr) {
      forall i | 0 <= i < |keys1| ensures !KeyFails(kr(keys1[i])) {
        assert keys1[i] in keys2;
      }
    }
  }

  /** A key's contribution placed in front of the later keys' result. */
  function Merge(key: string, kr: Option<FieldResult>, rest: SchemaResult): SchemaResult
  {
    match kr
    case None => rest
    case Some(f) => SchemaResult(f.valid && rest.valid, (if f.valid then [] else [FieldError(key, f.error)]) + rest.errors)
  }

  /** The schema splits at its first key. */
  lemma SchemaRunStep(reg: Registry, copy: Copy, keys: seq<string>, entries: map<string, Descriptor>, obj: JValue)
    requires |keys| > 0
    ensures SchemaRun(reg, copy, keys, entries, obj).Ok? <==>
              KeyResult(reg, copy, entries, keys[0], obj).Ok? && SchemaRun(reg, copy, keys[1..], entries, obj).Ok?
    ensures SchemaRun(reg, copy, keys, entries, obj).Ok? ==>
              SchemaRun(reg, copy, keys, entries, obj).value ==
              Merge(keys[0], KeyResult(reg, copy, entries, keys[0], obj).value, SchemaRun(reg, copy, keys[1..], entries, obj).value)
  {
    var head := CompileField(reg, copy, keys[0], DescriptorAt(entries, keys[0]));
    var tail := CompileSchema(reg, copy, keys[1..], entries);
    if head.Ok? && tail.Ok? {
      CompileSchemaFront(reg, copy, keys, entries, head.value, tail.value);
      if head.value.Some? {
        SchemaRunSome(reg, copy, keys, entries, obj, head.value.value, tail.value);
      } else {
        assert [] + tail.value == tail.value;
      }
    }
  }

  /** `SchemaRunStep` where the first key compiles to a field. */
  lemma SchemaRunSome(reg: Registry, copy: Copy, keys: seq<string>, entries: map<string, Descriptor>, obj: JValue,
                      c: CompiledField, tail: seq<CompiledField>)
    requires |keys| > 0
    requires CompileField(reg, copy, keys[0], DescriptorAt(entries, keys[0])) == Ok(Some(c))
    requires CompileSchema(reg, copy, keys[1..], entries) == Ok(tail)
    requires CompileSchema(reg, copy, keys, entries) == Ok([c] + tail)
    ensures SchemaRun(reg, copy, keys, entries, obj).Ok? <==>
              KeyResult(reg, copy, entries, keys[0], obj).Ok? && SchemaRun(reg, copy, keys[1..], entries, obj).Ok?
    ensures SchemaRun(reg, copy, keys, entries, obj).Ok? ==>
              SchemaRun(reg, copy, keys, entries, obj).value ==
              Merge(keys[0], KeyResult(reg, copy, entries, keys[0], obj).value, SchemaRun(reg, copy, keys[1..], entries, obj).value)
  {
    RunSchemaCons(c, tail, obj);
    assert KeyResult(reg, copy, entries, keys[0], obj) ==
           if RunCompiled(c, obj).Ok? then Ok(Some(RunCompiled(c, obj).value)) else Err(RunCompiled(c, obj).error);
  }

  lemma CompileSchemaFront(reg: Registry, copy: Copy, keys: seq<string>, entries: map<string, Descriptor>,
                           head: Option<CompiledField>, tail: seq<CompiledField>)
    requires |keys| > 0
    requires CompileField(reg, copy, keys[0], DescriptorAt(entries, keys[0])) == Ok(head)
    requires CompileSchema(reg, copy, keys[1..], entries) == Ok(tail)
    ensures CompileSchema(reg, copy, keys, entries) == Ok((if head.Some? then [head.value] else []) + tail)
  {
  }

  /** A compiled schema splits at its first field. */
  lemma RunSchemaCons(c: CompiledField, cs: seq<CompiledField>, obj: JValue)
    ensures RunSchema([c] + cs, obj).Ok? <==> RunCompiled(c, obj).Ok? && RunSchema(cs, obj).Ok?
    ensures RunSchema([c] + cs, obj).Ok? ==>
              RunSchema([c] + cs, obj).value == Merge(c.name, Some(RunCompiled(c, obj).value), RunSchema(cs, obj).value)
  {
    assert ([c] + cs)[0] == c && ([c] + cs)[1..] == cs;
  }

  lemma ErrorMapFront(e: FieldError, rest: seq<FieldError>)
    ensures ErrorMap([e] + rest) == map[e.field := e.error] + ErrorMap(rest)
  {
    assert ([e] + rest)[0] == e && ([e] + rest)[1..] == rest;
  }

  /** The schema function, compiled and run, succeeds iff every key does on
      its own; then it is valid iff no key fails, and its `errors` object
      maps exactly the failing keys to their fields' errors. */
  lemma {:induction false} SchemaByKeys(reg: Registry, copy: Copy, keys: seq<string>, entries: map<string, Descriptor>, obj: JValue)
    ensures SchemaRun(reg, copy, keys, entries, obj).Ok? <==> AllKeysOk(keys, KeyResults(reg, copy, entries, obj))
    ensures SchemaRun(reg, copy, keys, entries, obj).Ok? ==>
              && (SchemaRun(reg, copy, keys, entries, obj).value.valid <==> NoKeyFails(keys, KeyResults(reg, copy, entries, obj)))
              && ErrorMap(SchemaRun(reg, copy, keys, entries, obj).value.errors) == FailingErrors(keys, KeyResults(reg, copy, entries, obj))
  {
    var kr := KeyResults(reg, copy, entries, obj);
    if |keys| == 0 {
      assert FailingErrors(keys, kr) == map[];
    } else {
      SchemaByKeys(reg, copy, keys[1..], entries, obj);
      SchemaRunStep(reg, copy, keys, entries, obj);
      KeysStep(keys, kr);
      var head := KeyResult(reg, copy, entries, keys[0], obj);
      assert kr(keys[0]) == head;
      var rr := SchemaRun(reg, copy, keys[1..], entries, obj);
      if head.Ok? && rr.Ok? && head.value.Some? {
        if head.value.value.valid {
          assert [] + rr.value.errors == rr.value.errors;
        } else {
          ErrorMapFront(FieldError(keys[0], head.value.value.error), rr.value.errors);
        }
      }
    }
  }

  /** Compiling for the schema argument, once the key order is fixed. */
  lemma PipelineIsSchemaRun(reg: Registry, copy: Copy, keys: seq<string>, entries: map<string, Descriptor>, obj: JValue)
    ensures Pipeline(reg, copy, SchemaObject(keys, entries), obj)
            == SchemaRun(reg, copy, if copy == LibIndex then SortNames(keys) else keys, entries, obj)
  {
  }

  /** A field with an empty rule array, run on null or undefined: the dist
      copy emitted no line for it and reports a valid result, while the
      src copy's line reads the field of the missing object and throws. */
  lemma EmptyRulesOnNullish(reg: Registry, key: string, obj: JValue)
    requires key != "" && (obj.Null? || obj.Undefined?)
    ensures Pipeline(reg, DistBundle, SchemaObject([key], map[key := Descriptor(RuleList([]))]), obj)
            == Ok(SchemaResult(true, []))
    ensures Pipeline(reg, SrcIndex, SchemaObject([key], map[key := Descriptor(RuleList([]))]), obj)
            == Err(ReadOfNullish(key))
  {
    var entries := map[key := Descriptor(RuleList([]))];
    assert DescriptorAt(entries, key) == Descriptor(RuleList([]));
    assert [key][0] == key && [key][1..] == [];
    var none: seq<CompiledField> := [];
    assert CompileSchema(reg, DistBundle, [], entries) == Ok(none);
    assert CompileSchema(reg, SrcIndex, [], entries) == Ok(none);
    CompileSchemaFront(reg, DistBundle, [key], entries, None, none);
    var c := CompiledField(key, Some([]));
    CompileSchemaFront(reg, SrcIndex, [key], entries, Some(c), none);
    assert [c] + none == [c];
    assert RunSchema([c], obj) == Err(ReadOfNullish(key));
  }

  /** The src and lib copies compile any key list alike. */
  lemma {:induction false} SrcLibCompileAlike(reg: Registry, keys: seq<string>, entries: map<string, Descriptor>)
    ensures CompileSchema(reg, LibIndex, keys, entries) == CompileSchema(reg, SrcIndex, keys, entries)
  {
    if |keys| > 0 {
      SrcLibCompileAlike(reg, keys[1..], entries);
    }
  }

  /** Two key lists holding the same keys give the same success, validity
      and `errors` object. */
  lemma SameKeysSameErrors(reg: Registry, copy: Copy, keys1: seq<string>, keys2: seq<string>,
                           entries: map<string, Descriptor>, obj: JValue)
    requires forall k :: k in keys1 <==> k in keys2
    ensures SchemaRun(reg, copy, keys1, entries, obj).Ok? <==> SchemaRun(reg, copy, keys2, entries, obj).Ok?
    ensures SchemaRun(reg, copy, keys1, entries, obj).Ok? ==>
              && SchemaRun(reg, copy, keys1, entries, obj).value.valid == SchemaRun(reg, copy, keys2, entries, obj).value.valid
              && ErrorMap(SchemaRun(reg, copy, keys1, entries, obj).value.errors)
                 == ErrorMap(SchemaRun(reg, copy, keys2, entries, obj).value.errors)
  {
    SchemaByKeys(reg, copy, keys1, entries, obj);
    SchemaByKeys(reg, copy, keys2, entries, obj);
    SameKeys(keys1, keys2, KeyResults(reg, copy, entries, obj));
  }

  /** Sorting the keys (the lib copy) changes only the order in which
      errors are assigned: success, validity and the `errors` object are
      those of the src copy. */
  lemma SortedKeysSameErrors(reg: Registry, keys: seq<string>, entries: map<string, Descriptor>, obj: JValue)
    ensures Pipeline(reg, SrcIndex, SchemaObject(keys, entries), obj).Ok?
            <==> Pipeline(reg, LibIndex, SchemaObject(keys, entries), obj).Ok?
    ensures Pipeline(reg, SrcIndex, SchemaObject(keys, entries), obj).Ok? ==>
              && Pipeline(reg, SrcIndex, SchemaObject(keys, entries), obj).value.valid
                 == Pipeline(reg, LibIndex, SchemaObject(keys, entries), obj).value.valid
              && ErrorMap(Pipeline(reg, SrcIndex, SchemaObject(keys, entries), obj).value.errors)
                 == ErrorMap(Pipeline(reg, LibIndex, SchemaObject(keys, entries), obj).value.errors)
  {
    var sorted := SortNames(keys);
    PipelineIsSchemaRun(reg, SrcIndex, keys, entries, obj);
    PipelineIsSchemaRun(reg, LibIndex, keys, entries, obj);
    SrcLibCompileAlike(reg, sorted, entries);
    assert SchemaRun(reg, LibIndex, sorted, entries, obj) == SchemaRun(reg, SrcIndex, sorted, entries, obj);
    assert forall k :: k in keys <==> k in sorted by {
      forall k ensures k in keys <==> k in sorted {
        assert k in keys <==> k in multiset(keys);
        assert k in sorted <==> k in multiset(sorted);
      }
    }
    SameKeysSameErrors(reg, SrcIndex, keys, sorted, entries, obj);
  }

  /** The schema function reads the object only at the compiled fields:
      two objects that agree there get the same result. */
  lemma {:induction false} ReadsOnlyCompiledFields(cs: seq<CompiledField>, a: JValue, b: JValue)
    requires !(a.Undefined? || a.Null?) && !(b.Undefined? || b.Null?)
    requires forall i :: 0 <= i < |cs| ==> Get(a, cs[i].name) == Get(b, cs[i].name)
    ensures RunSchema(cs, a) == RunSchema(cs, b)
  {
    if |cs| > 0 {
      forall i | 0 <= i < |cs[1..]| ensures Get(a, cs[1..][i].name) == Get(b, cs[1..][i].name) {
        assert cs[1..][i] == cs[i + 1];
      }
      ReadsOnlyCompiledFields(cs[1..], a, b);
      assert RunCompiled(cs[0], a) == RunCompiled(cs[0], b);
    }
  }

  /* ------------------------------------------------------- sorting keys */

  /** Ascending under JavaScript's default `sort` order for strings. */
  predicate Sorted(s: seq<string>)
  {
    forall i, j :: 0 <= i < j < |s| ==> !StringLess(s[j], s[i])
  }

  /** A head no later than every element of a sorted list keeps it sorted. */
  lemma SortedCons(h: string, t: seq<string>)
    requires Sorted(t)
    requires forall j :: 0 <= j < |t| ==> !StringLess(t[j], h)
    ensures Sorted([h] + t)
  {
    var r := [h] + t;
    forall i, j | 0 <= i < j < |r| ensures !StringLess(r[j], r[i]) {
      assert r[j] == t[j - 1];
      if i > 0 {
        assert r[i] == t[i - 1];
      }
    }
  }

  /** Every element of a sorted list is no earlier than its head. */
  lemma HeadIsLeast(s: seq<string>, j: int)
    requires Sorted(s) && 0 <= j < |s|
    ensures !StringLess(s[j], s[0])
  {
    if j == 0 {
      StringLessIrreflexive(s[0]);
    }
  }

  /** When `x` does not precede the head, the whole list lies at or after it. */
  lemma AllFromHead(x: string, s: seq<string>)
    requires Sorted(s) && |s| > 0 && !StringLess(s[0], x)
    ensures forall j :: 0 <= j < |s| ==> !StringLess(s[j], x)
  {
    forall j | 0 <= j < |s| ensures !StringLess(s[j], x) {
      if StringLess(s[j], x) {
        HeadIsLeast(s, j);
        StringLessTotal(s[0], s[j]);
        if StringLess(s[0], s[j]) {
          StringLessTransitive(s[0], s[j], x);
        }
      }
    }
  }

  /** What `x` was inserted into the tail of `s` with lies at or after `s[0]`. */
  lemma TailAfterHead(x: string, s: seq<string>, tail: seq<string>)
    requires Sorted(s) && |s| > 0 && StringLess(s[0], x)
    requires multiset(tail) == multiset(s[1..]) + multiset{x}
    ensures forall j :: 0 <= j < |tail| ==> !StringLess(tail[j], s[0])
  {
    forall j | 0 <= j < |tail| ensures !StringLess(tail[j], s[0]) {
      assert tail[j] in multiset(tail);
      if tail[j] == x {
        if StringLess(x, s[0]) {
          StringLessTransitive(x, s[0], x);
          StringLessIrreflexive(x);
        }
      } else {
        assert tail[j] in multiset(s[1..]);
        var k :| 0 <= k < |s[1..]| && s[1..][k] == tail[j];
        HeadIsLeast(s, k + 1);
      }
    }
  }

  lemma SortedTail(s: seq<string>)
    requires Sorted(s) && |s| > 0
    ensures Sorted(s[1..])
  {
  }

  lemma MultisetCons(h: string, t: seq<string>, extra: string)
    ensures multiset([h] + t) + multiset{extra} == multiset{h} + (multiset(t) + multiset{extra})
  {
  }

  function Insert(x: string, s: seq<string>): (r: seq<string>)
    requires Sorted(s)
    ensures Sorted(r)
    ensures multiset(r) == multiset(s) + multiset{x}
  {
    if |s| == 0 then [x]
    else if StringLess(s[0], x) then
      SortedTail(s);
      var tail := Insert(x, s[1..]);
      TailAfterHead(x, s, tail);
      SortedCons(s[0], tail);
      assert s == [s[0]] + s[1..];
      MultisetCons(s[0], s[1..], x);
      [s[0]] + tail
    else
      AllFromHead(x, s);
      SortedCons(x, s);
      [x] + s
  }

  /** `Object.keys(descriptors).sort()`. */
  function SortNames(s: seq<string>): (r: seq<string>)
    ensures Sorted(r)
    ensures multiset(r) == multiset(s)
  {
    if |s| == 0 then []
    else
      assert s == [s[0]] + s[1..];
      Insert(s[0], SortNames(s[1..]))
  }
}

=== FILE: examples.dfy ===
/** Worked cases from the library's test suite (test/test.js,
    test/examples.js), each stated for the model and proved about it, and
    the two halves of the `prepare` discrepancy between the builds.
 */
module Examples {
  import opened Results
  import opened JsValues
  import opened Text
  import opened Template
  import opened ValidatorBase
  import opened Catalog
  import opened Registry
  import opened Resolver
  import opened Compiler

  /* ------------------------------------------------------------ messages */

  /** The type validator's default message, parsed. */
  const TypeTemplate := [Lit("Expected "), Tok("expected"), Lit(", got "), Tok("got"), Lit(".")]

  lemma TypeTemplateWellFormed()
    ensures Format(TypeTemplate) == "Expected {{expected}}, got {{got}}."
    ensures forall i :: 0 <= i < |TypeTemplate| ==> WellFormedPiece(TypeTemplate[i])
  {
    TypeTemplateFormat();
    TypeTemplatePieces();
  }

  lemma TypeTemplateFormat()
    ensures Format(TypeTemplate) == "Expected {{expected}}, got {{got}}."
  {
  }

  lemma TypeTemplatePieces()
    ensures forall i :: 0 <= i < |TypeTemplate| ==> WellFormedPiece(TypeTemplate[i])
  {
    assert WellFormedPiece(Lit("Expected "));
    assert WellFormedPiece(Tok("expected"));
    assert WellFormedPiece(Lit(", got "));
    assert WellFormedPiece(Tok("got"));
    assert WellFormedPiece(Lit("."));
  }

  lemma TypeTemplateFilled(expected: string, got: string)
    ensures Fill(TypeTemplate, map["got" := Str(got), "expected" := Str(expected)])
            == TypeText(expected, got)
  {
    var refs := map["got" := Str(got), "expected" := Str(expected)];
    FillFive(Lit("Expected "), Tok("expected"), Lit(", got "), Tok("got"), Lit("."), refs);
    assert FillPiece(Tok("expected"), refs) == expected;
    assert FillPiece(Tok("got"), refs) == got;
  }

  /** Filling a five-piece template concatenates the pieces' fills. */
  lemma FillFive(p1: Piece, p2: Piece, p3: Piece, p4: Piece, p5: Piece, refs: map<string, JValue>)
    ensures Fill([p1, p2, p3, p4, p5], refs)
            == FillPiece(p1, refs) + FillPiece(p2, refs) + FillPiece(p3, refs) + FillPiece(p4, refs) + FillPiece(p5, refs)
  {
    FillThree(p3, p4, p5, refs);
    assert [p1, p2, p3, p4, p5] == [p1] + ([p2] + [p3, p4, p5]);
    FillCons(p2, [p3, p4, p5], refs);
    FillCons(p1, [p2] + [p3, p4, p5], refs);
    ConcatFive(FillPiece(p1, refs), FillPiece(p2, refs), FillPiece(p3, refs), FillPiece(p4, refs), FillPiece(p5, refs));
  }

  /** Filling a three-piece template concatenates the pieces' fills. */
  lemma FillThree(p1: Piece, p2: Piece, p3: Piece, refs: map<string, JValue>)
    ensures Fill([p1, p2, p3], refs) == FillPiece(p1, refs) + FillPiece(p2, refs) + FillPiece(p3, refs)
  {
    assert [p1, p2, p3] == [p1] + ([p2] + ([p3] + []));
    FillCons(p3, [], refs);
    FillCons(p2, [p3] + [], refs);
    FillCons(p1, [p2] + ([p3] + []), refs);
    ConcatThree(FillPiece(p1, refs), FillPiece(p2, refs), FillPiece(p3, refs));
  }

  lemma ConcatThree(a: string, b: string, c: string)
    ensures a + (b + (c + "")) == a + b + c
  {
  }

  lemma ConcatFive(a: string, b: string, c: string, d: string, e: string)
    ensures a + (b + (c + d + e)) == a + b + c + d + e
  {
  }

  /** The type validator's message, filled in. */
  function TypeText(expected: string, got: string): string
  {
    "Expected " + expected + ", got " + got + "."
  }

  /** The type validator words its failure with both type names. */
  lemma TypeMessage(build: Build, expected: string, value: JValue)
    requires !TypeAccepts(expected, value)
    ensures Validate(Prototype(build, TypeCheck(expected)), value)
            == Ok(Fail(Str(TypeText(expected, TypeOf(value)))))
  {
    var v := Prototype(build, TypeCheck(expected));
    var refs := map["got" := Str(TypeOf(value)), "expected" := Str(expected)];
    TypePrototypeShape(build, expected);
    assert Decide(v, value) == Invalid(DefaultKey, Given(refs));
    TypeTextPrepared(v, expected, TypeOf(value));
    ValidateResponds(v, value);
  }

  lemma TypePrototypeShape(build: Build, expected: string)
    ensures Prototype(build, TypeCheck(expected)).kind == TypeCheck(expected)
    ensures !Prototype(build, TypeCheck(expected)).allowEmpty
    ensures DefaultKey in Prototype(build, TypeCheck(expected)).messages
    ensures Prototype(build, TypeCheck(expected)).messages[DefaultKey] == Format(TypeTemplate)
  {
    TypeTemplateFormat();
  }

  /** The type message with both names given as references. */
  lemma TypeTextPrepared(v: Validator, expected: string, got: string)
    requires DefaultKey in v.messages && v.messages[DefaultKey] == Format(TypeTemplate)
    ensures Respond(v, Invalid(DefaultKey, Given(map["got" := Str(got), "expected" := Str(expected)])))
            == Ok(Fail(Str(TypeText(expected, got))))
  {
    var refs := map["got" := Str(got), "expected" := Str(expected)];
    TypeTemplateWellFormed();
    PrepareFormat(TypeTemplate, refs);
    TypeTemplateFilled(expected, got);
    assert PrepareIn(v, DefaultKey, Some(refs)) == Ok(TypeText(expected, got));
  }

  /** `create('type').validate(123)` is 'Expected string, got number.'. */
  lemma TypeMessageOfNumber(n: int)
    ensures Validate(Prototype(Src, TypeCheck("string")), Num(n)) == Ok(Fail(Str("Expected string, got number.")))
  {
    assert TypeOf(Num(n)) == "number";
    assert !TypeAccepts("string", Num(n));
    TypeMessage(Src, "string", Num(n));
    StringNumberText();
  }

  lemma StringNumberText()
    ensures TypeText("string", "number") == "Expected string, got number."
  {
  }

  /** The length validator's string messages, parsed. */
  const TooShortTemplate := [Lit("Too short, should be at least "), Tok("min"), Lit(" character(s).")]

  lemma TooShortTemplateWellFormed()
    ensures Format(TooShortTemplate) == "Too short, should be at least {{min}} character(s)."
    ensures forall i :: 0 <= i < |TooShortTemplate| ==> WellFormedPiece(TooShortTemplate[i])
  {
    TooShortTemplateFormat();
    TooShortTemplatePieces();
  }

  lemma TooShortTemplateFormat()
    ensures Format(TooShortTemplate) == "Too short, should be at least {{min}} character(s)."
  {
  }

  lemma TooShortTemplatePieces()
    ensures forall i :: 0 <= i < |TooShortTemplate| ==> WellFormedPiece(TooShortTemplate[i])
  {
    assert WellFormedPiece(Lit("Too short, should be at least "));
    assert WellFormedPiece(Tok("min"));
    assert WellFormedPiece(Lit(" character(s)."));
  }

  lemma TooShortMessageSplit()
    ensures "Too short, should be at least {{min}} character(s)." == "Too short, should be at least " + "{{" + "min" + "}}" + " character(s)."
  {
  }

  lemma TooShortTemplateFilled(refs: map<string, JValue>)
    ensures Fill(TooShortTemplate, refs) == "Too short, should be at least " + Render(Lookup(refs, "min")) + " character(s)."
  {
    FillThree(Lit("Too short, should be at least "), Tok("min"), Lit(" character(s)."), refs);
  }

  /** A length validator configured with only `min`. */
  function MinLength(build: Build, min: nat): Validator
  {
    Configure(Prototype(build, Length(None, None)), NoOptions.(min := Some(min)))
  }

  lemma MinLengthShape(build: Build, min: nat)
    ensures MinLength(build, min).kind == Length(Some(min), None)
    ensures !MinLength(build, min).allowEmpty
    ensures MinLength(build, min).build == build
    ensures MinLength(build, min).messages["tooShortString"] == Format(TooShortTemplate)
  {
    assert MinLength(build, min).messages == DefaultMessages(Length(None, None));
    TooShortDefault(None, None);
  }

  /** The too-short message every length validator starts with. */
  lemma TooShortDefault(lo: Option<int>, hi: Option<int>)
    ensures "tooShortString" in DefaultMessages(Length(lo, hi))
    ensures DefaultMessages(Length(lo, hi))["tooShortString"] == Format(TooShortTemplate)
  {
    TooShortTemplateFormat();
  }

  lemma MinLengthTooShort(build: Build, min: nat, s: string)
    requires |s| < min
    ensures MinLength(build, min).kind == Length(Some(min), None)
    ensures Decide(MinLength(build, min), Str(s)) == Invalid("tooShortString", Own)
  {
    MinLengthShape(build, min);
    ShortStringDecision(MinLength(build, min), min, s);
  }

  /** Any length validator with only `min` set and `allowEmpty` off sends
      a shorter string to the `tooShortString` message. */
  lemma ShortStringDecision(v: Validator, min: nat, s: string)
    requires v.kind == Length(Some(min), None) && !v.allowEmpty && |s| < min
    ensures Decide(v, Str(s)) == Invalid("tooShortString", Own)
  {
    assert !Skips(v, Str(s));
    assert Measure(|s|, "String", Some(min), None) == Invalid("tooShort" + "String", Own);
  }

  /** The length validator of the src build, with only `min` set, on a
      string that is too short: `prepare` is called without references and
      throws at the `{{min}}` token instead of returning the message. */
  lemma TooShortHasToken()
    ensures HasToken(Format(TooShortTemplate))
  {
    TooShortTemplateWellFormed();
    TooShortMessageSplit();
    TokenFound("Too short, should be at least ", "min", " character(s).");
  }

  lemma LengthMessageAsWritten(min: nat, s: string)
    requires |s| < min
    ensures Validate(MinLength(Src, min), Str(s)) == Err(NoReferences)
  {
    var v := MinLength(Src, min);
    MinLengthShape(Src, min);
    MinLengthTooShort(Src, min, s);
    TooShortHasToken();
    OwnWordingWithToken(v, "tooShortString");
    ValidateResponds(v, Str(s));
  }

  /** `create('length', {min: 5}).validate('abc')` under the src build. */
  lemma LengthFiveAsWritten(s: string)
    requires |s| < 5
    ensures Validate(MinLength(Src, 5), Str(s)) == Err(NoReferences)
  {
    LengthMessageAsWritten(5, s);
  }

  /** The same validator under the dist build, whose `prepare` falls back
      to the validator's own fields: the bound appears in the message. */
  lemma LengthMessageCorrected(min: nat, s: string)
    requires |s| < min
    ensures Validate(MinLength(Dist, min), Str(s)) == Ok(Fail(Str(TooShortText(min))))
  {
    var v := MinLength(Dist, min);
    MinLengthShape(Dist, min);
    MinLengthTooShort(Dist, min, s);
    OwnTooShortText(v, min);
    OwnWordingPrepared(v, "tooShortString", TooShortText(min));
    ValidateResponds(v, Str(s));
  }

  /** The too-short message with its bound filled in. */
  function TooShortText(min: int): string
  {
    "Too short, should be at least " + IntToString(min) + " character(s)."
  }

  /** Under the dist build the `{{min}}` token of the too-short message
      is read from the validator's own `min` field. */
  lemma OwnTooShortText(v: Validator, min: nat)
    requires v.build == Dist && v.kind == Length(Some(min), None) && min != 0
    requires "tooShortString" in v.messages && v.messages["tooShortString"] == Format(TooShortTemplate)
    ensures PrepareIn(v, "tooShortString", None) == Ok(TooShortText(min))
  {
    TooShortTemplateWellFormed();
    PrepareFormat(TooShortTemplate, OwnFields(v));
    OwnBoundRendering(v, Some(min), None);
    TooShortTemplateFilled(OwnFields(v));
  }

  /** A dist validator failing with its own wording returns the prepared
      message. */
  lemma OwnWordingPrepared(v: Validator, key: string, text: string)
    requires v.build == Dist && PrepareIn(v, key, None) == Ok(text)
    ensures Respond(v, Invalid(key, Own)) == Ok(Fail(Str(text)))
  {
  }

  lemma LengthFiveCorrected(s: string)
    requires |s| < 5
    ensures Validate(MinLength(Dist, 5), Str(s)) == Ok(Fail(Str("Too short, should be at least 5 character(s).")))
  {
    LengthMessageCorrected(5, s);
    FiveText();
  }

  lemma FiveText()
    ensures TooShortText(5) == "Too short, should be at least 5 character(s)."
  {
    assert IntToString(5) == "5";
  }

  /** A dist message of literal text followed by one token reads the
      token from the validator's own fields. */
  lemma OwnTokenMessage(v: Validator, lit: string, w: string)
    requires v.build == Dist && DefaultKey in v.messages && v.messages[DefaultKey] == lit + "{{" + w + "}}"
    requires forall i :: 0 <= i < |lit| ==> lit[i] != '{'
    requires WellFormedPiece(Tok(w))
    ensures PrepareIn(v, DefaultKey, None) == Ok(lit + Render(Lookup(OwnFields(v), w)))
  {
    var tok := "{{" + w + "}}";
    assert v.messages[DefaultKey] == lit + tok;
    PrepareLiteral(lit, tok, OwnFields(v));
    PrepareToken(w, "", OwnFields(v));
    assert tok + "" == tok;
    var rendered := Render(Lookup(OwnFields(v), w));
    assert Prepare("", OwnFields(v)) == "";
    assert rendered + "" == rendered;
    assert Prepare(tok, OwnFields(v)) == rendered;
  }

  /** `create('boolean', {message: 'Use {{trueValues}}'})` under the dist
      build. */
  const UseTrueValues := Configure(Prototype(Dist, Boolean([Bool(true)], [Bool(false)])), NoOptions.(message := Some("Use {{trueValues}}")))

  lemma UseTrueValuesShape()
    ensures UseTrueValues.kind == Boolean([Bool(true)], [Bool(false)])
    ensures !UseTrueValues.allowEmpty && UseTrueValues.build == Dist
    ensures GetMessage(UseTrueValues) == Some("Use {{trueValues}}")
  {
  }

  lemma TrueValuesMessageSplit()
    ensures "Use {{trueValues}}" == "Use " + "{{" + "trueValues" + "}}"
  {
  }

  lemma TrueValuesWord()
    ensures WellFormedPiece(Tok("trueValues"))
  {
  }

  /** Its `{{trueValues}}` token is read from the own `trueValues` array
      that the constructor's defaults create. */
  lemma TrueValuesToken()
    ensures Validate(UseTrueValues, Str("x")) == Ok(Fail(Str("Use true")))
  {
    UseTrueValuesShape();
    TrueValuesMessageSplit();
    TrueValuesWord();
    TrueValuesMessage(UseTrueValues);
  }

  lemma TrueValuesMessage(v: Validator)
    requires v.kind == Boolean([Bool(true)], [Bool(false)]) && !v.allowEmpty && v.build == Dist
    requires DefaultKey in v.messages && v.messages[DefaultKey] == "Use " + "{{" + "trueValues" + "}}"
    requires WellFormedPiece(Tok("trueValues"))
    ensures Validate(v, Str("x")) == Ok(Fail(Str("Use true")))
  {
    OwnTokenMessage(v, "Use ", "trueValues");
    TrueValuesText(v);
    assert "Use " + "true" == "Use true";
    assert PrepareIn(v, DefaultKey, None) == Ok("Use true");
    assert Decide(v, Str("x")) == Invalid(DefaultKey, Raw);
    ValidateResponds(v, Str("x"));
  }

  lemma TrueValuesText(v: Validator)
    requires v.kind == Boolean([Bool(true)], [Bool(false)])
    ensures Render(Lookup(OwnFields(v), "trueValues")) == "true"
  {
    OwnCollectionRendering(v);
    assert JoinItems([Bool(true)]) == "true";
  }

  /** `create('url', {message: 'Use {{schemes}}'})` under the dist build. */
  const UseSchemes := Configure(Prototype(Dist, Url(["http", "https"], true)), NoOptions.(message := Some("Use {{schemes}}")))

  lemma UseSchemesShape()
    ensures UseSchemes.kind == Url(["http", "https"], true) && UseSchemes.build == Dist
    ensures GetMessage(UseSchemes) == Some("Use {{schemes}}")
  {
  }

  lemma SchemesMessageSplit()
    ensures "Use {{schemes}}" == "Use " + "{{" + "schemes" + "}}"
  {
  }

  lemma SchemesWord()
    ensures WellFormedPiece(Tok("schemes"))
  {
  }

  lemma DefaultSchemesText()
    ensures JoinItems(StrItems(["http", "https"])) == "http,https"
  {
    assert StrItems(["http", "https"]) == [Str("http"), Str("https")];
  }

  /** Its message lists the default schemes, joined by a comma. */
  lemma SchemesToken()
    ensures PrepareIn(UseSchemes, DefaultKey, None) == Ok("Use http,https")
  {
    UseSchemesShape();
    SchemesMessageSplit();
    SchemesWord();
    SchemesMessage(UseSchemes);
  }

  lemma SchemesMessage(v: Validator)
    requires v.kind == Url(["http", "https"], true) && v.build == Dist
    requires DefaultKey in v.messages && v.messages[DefaultKey] == "Use " + "{{" + "schemes" + "}}"
    requires WellFormedPiece(Tok("schemes"))
    ensures PrepareIn(v, DefaultKey, None) == Ok("Use http,https")
  {
    OwnTokenMessage(v, "Use ", "schemes");
    OwnCollectionRendering(v);
    DefaultSchemesText();
    assert Render(Lookup(OwnFields(v), "schemes")) == "http,https";
    assert "Use " + "http,https" == "Use http,https";
  }

  /* --------------------------------------------------------- the schema */

  /** The registry lib/index.js builds: required, type and instanceOf
      over the src base class. */
  const LibRegistry := Registry(Src, map["required" := Prototype(Src, Required), "type" := Prototype(Src, TypeCheck("string")),
                                         "instanceOf" := Prototype(Src, InstanceCheck(Undefined))])

  const StringType := NoOptions.(typeName := Some("string"))
  const RequiredRule := Prototype(Src, Required)
  const StringRule := Prototype(Src, TypeCheck("string"))

  /** The `User` descriptors of test/test.js: `name` is required and a
      string, `email` a string. */
  const UserKeys := ["name", "email"]
  const UserEntries := map[
    "name" := Descriptor(RuleList([ObjectRule(Str("required"), NoOptions), ArrayRule(Str("type"), Some(StringType))])),
    "email" := Descriptor(RuleList([ObjectRule(Str("type"), StringType)]))]

  const EmailField := CompiledField("email", Some([StringRule]))
  const NameField := CompiledField("name", Some([RequiredRule, StringRule]))

  lemma UserKeysSorted()
    ensures SortNames(UserKeys) == ["email", "name"]
  {
    assert UserKeys[1..] == ["email"];
    assert ["email"][1..] == [];
    assert SortNames(["email"]) == Insert("email", []) == ["email"];
    assert StringLess("email", "name");
    assert ["email"][1..] == [];
    assert Insert("name", ["email"]) == ["email"] + Insert("name", []);
  }

  lemma EmailCompiles()
    ensures CompileField(LibRegistry, LibIndex, "email", DescriptorAt(UserEntries, "email")) == Ok(Some(EmailField))
  {
    var rule := ObjectRule(Str("type"), StringType);
    TypeRuleResolves(rule);
    ResolveOne(LibRegistry, rule, StringRule);
    FieldOfRules(LibRegistry, "email", [rule], [StringRule]);
  }

  lemma NameCompiles()
    ensures CompileField(LibRegistry, LibIndex, "name", DescriptorAt(UserEntries, "name")) == Ok(Some(NameField))
  {
    var r0 := ObjectRule(Str("required"), NoOptions);
    var r1 := ArrayRule(Str("type"), Some(StringType));
    RequiredRuleResolves();
    TypeRuleResolves(r1);
    ResolveTwo(LibRegistry, r0, r1, RequiredRule, StringRule);
    FieldOfRules(LibRegistry, "name", [r0, r1], [RequiredRule, StringRule]);
  }

  lemma RequiredRuleResolves()
    ensures Resolve(LibRegistry, false, ObjectRule(Str("required"), NoOptions)) == Ok(RequiredRule)
  {
    assert Configure(RequiredRule, NoOptions) == RequiredRule;
  }

  lemma TypeRuleResolves(rule: RuleSpec)
    requires rule == ObjectRule(Str("type"), StringType) || rule == ArrayRule(Str("type"), Some(StringType))
    ensures Resolve(LibRegistry, false, rule) == Ok(StringRule)
  {
    assert Configure(StringRule, StringType) == StringRule;
  }

  lemma ResolveOne(reg: Registry, r0: RuleSpec, v0: Validator)
    requires Resolve(reg, false, r0) == Ok(v0)
    ensures ResolveAll(reg, false, [r0]) == Ok([v0])
  {
    var r := ResolveAll(reg, false, [r0]);
    assert [r0][0] == r0;
    assert r.Ok? && |r.value| == 1 && r.value[0] == v0;
    assert r.value == [v0];
  }

  lemma ResolveTwo(reg: Registry, r0: RuleSpec, r1: RuleSpec, v0: Validator, v1: Validator)
    requires Resolve(reg, false, r0) == Ok(v0) && Resolve(reg, false, r1) == Ok(v1)
    ensures ResolveAll(reg, false, [r0, r1]) == Ok([v0, v1])
  {
    var r := ResolveAll(reg, false, [r0, r1]);
    assert [r0, r1][0] == r0 && [r0, r1][1] == r1;
    assert r.Ok? && |r.value| == 2 && r.value[0] == v0 && r.value[1] == v1;
    assert r.value == [v0, v1];
  }

  /** A descriptor whose rules all resolve compiles (lib copy) to them. */
  lemma FieldOfRules(reg: Registry, key: string, rules: seq<RuleSpec>, vs: seq<Validator>)
    requires key != "" && ResolveAll(reg, false, rules) == Ok(vs)
    ensures CompileField(reg, LibIndex, key, Descriptor(RuleList(rules))) == Ok(Some(CompiledField(key, Some(vs))))
  {
    assert ForDescriptor(reg, key, Descriptor(RuleList(rules))) == Ok(Some(vs));
  }

  lemma CompileTwo(reg: Registry, copy: Copy, k1: string, k2: string, entries: map<string, Descriptor>, c1: CompiledField, c2: CompiledField)
    requires CompileField(reg, copy, k1, DescriptorAt(entries, k1)) == Ok(Some(c1))
    requires CompileField(reg, copy, k2, DescriptorAt(entries, k2)) == Ok(Some(c2))
    ensures CompileSchema(reg, copy, [k1, k2], entries) == Ok([c1, c2])
  {
    assert [k1, k2][0] == k1 && [k1, k2][1..] == [k2];
    assert [k2][0] == k2 && [k2][1..] == [];
    assert CompileSchema(reg, copy, [], entries) == Ok([]);
    assert [c2] + [] == [c2];
    assert CompileSchema(reg, copy, [k2], entries) == Ok([c2]);
    assert [c1] + [c2] == [c1, c2];
  }

  /** The lib copy compiles the descriptors in sorted key order. */
  lemma UserCompiles()
    ensures ForDescriptors(LibRegistry, LibIndex, SchemaObject(UserKeys, UserEntries)) == Ok([EmailField, NameField])
  {
    UserKeysSorted();
    EmailCompiles();
    NameCompiles();
    CompileTwo(LibRegistry, LibIndex, "email", "name", UserEntries, EmailField, NameField);
  }

  function UserObject(fields: map<string, JValue>): JValue
  {
    Obj(0, fields, PlainProto)
  }

  /** A string passes the type rule, and so a field holding only it. */
  lemma StringPasses(vs: seq<Validator>, s: string)
    requires vs == [StringRule] || vs == [RequiredRule, StringRule]
    requires s != ""
    ensures RunField(vs, Str(s)) == Ok(FieldResult(true, Undefined))
  {
    StringRuleAccepts(s);
    FirstRulePasses([StringRule], Str(s));
    assert [StringRule][1..] == [];
    if vs == [RequiredRule, StringRule] {
      RequiredRuleAccepts(Str(s));
      FirstRulePasses(vs, Str(s));
      assert vs[1..] == [StringRule];
    }
  }

  lemma StringRuleAccepts(s: string)
    ensures Validate(StringRule, Str(s)) == Ok(Pass)
  {
    assert StringRule.kind == TypeCheck("string");
    TypeRuleAccepts(StringRule, Str(s));
  }

  /** Any type validator passes a value of its type. */
  lemma TypeRuleAccepts(v: Validator, value: JValue)
    requires v.kind.TypeCheck? && TypeAccepts(v.kind.expected, value)
    ensures Validate(v, value) == Ok(Pass)
  {
    assert DecideType(v, value) == Valid;
  }

  lemma RequiredRuleAccepts(value: JValue)
    requires !IsEmpty(Src, value)
    ensures Validate(RequiredRule, value) == Ok(Pass)
  {
  }

  /** A value of another type fails the type rule with both type names. */
  lemma WrongTypeMessage(value: JValue)
    requires !value.Str?
    ensures Validate(StringRule, value) == Ok(Fail(Str(TypeText("string", TypeOf(value)))))
  {
    assert !TypeAccepts("string", value);
    TypeMessage(Src, "string", value);
  }

  lemma WrongTypeFails(value: JValue)
    requires !value.Str?
    ensures RunField([StringRule], value) == Ok(FieldResult(false, Str(TypeText("string", TypeOf(value)))))
  {
    WrongTypeMessage(value);
    FirstRuleFails([StringRule], value, Str(TypeText("string", TypeOf(value))));
  }

  /** A present value of another type passes `required` and then fails
      the type rule. */
  lemma PresentWrongTypeFails(value: JValue)
    requires !value.Str? && !IsEmpty(Src, value)
    ensures RunField([RequiredRule, StringRule], value) == Ok(FieldResult(false, Str(TypeText("string", TypeOf(value)))))
  {
    RequiredRuleAccepts(value);
    FirstRulePasses([RequiredRule, StringRule], value);
    assert [RequiredRule, StringRule][1..] == [StringRule];
    WrongTypeFails(value);
  }

  /** An absent name stops at `required`; the type rule is not consulted. */
  lemma AbsentNameFails()
    ensures RunField([RequiredRule, StringRule], Undefined) == Ok(FieldResult(false, Str("Cannot be empty.")))
  {
    assert Validate(RequiredRule, Undefined) == Ok(Fail(Str("Cannot be empty.")));
    FirstRuleFails([RequiredRule, StringRule], Undefined, Str("Cannot be empty."));
  }

  /** A null value stops at a leading `required`: whatever rules follow
      it (test/examples.js pairs it with a regexp) are never consulted. */
  lemma NullStopsAtRequired(rest: seq<Validator>)
    ensures RunField([RequiredRule] + rest, Null) == Ok(FieldResult(false, Str("Cannot be empty.")))
  {
    assert Validate(RequiredRule, Null) == Ok(Fail(Str("Cannot be empty.")));
    FirstRuleFails([RequiredRule] + rest, Null, Str("Cannot be empty."));
  }

  /** A field named `length` on a string input reads the string's own
      `length` property, so `required` sees a number and passes. */
  lemma LengthFieldOfString(s: string)
    ensures RunCompiled(CompiledField("length", Some([RequiredRule])), Str(s)) == Ok(FieldResult(true, Undefined))
  {
    OwnPropertyReads(Str(s), 0, "length");
    RequiredRuleAccepts(Num(|s|));
    FirstRulePasses([RequiredRule], Num(|s|));
    assert [RequiredRule][1..] == [];
  }

  /** The schema run, once it is known to compile to the two fields: the
      email field's result first, then the name field's. */
  lemma UserRun(arg: SchemaArg, obj: JValue, r1: FieldResult, r2: FieldResult)
    requires ForDescriptors(LibRegistry, LibIndex, arg) == Ok([EmailField, NameField])
    requires obj.Obj?
    ensures RunField([StringRule], Get(obj, "email")) == Ok(r1) &&
            RunField([RequiredRule, StringRule], Get(obj, "name")) == Ok(r2) ==>
            Pipeline(LibRegistry, LibIndex, arg, obj)
            == Ok(SchemaResult(r1.valid && r2.valid,
                               (if r1.valid then [] else [FieldError("email", r1.error)])
                               + (if r2.valid then [] else [FieldError("name", r2.error)])))
  {
    if RunField([StringRule], Get(obj, "email")) == Ok(r1) &&
       RunField([RequiredRule, StringRule], Get(obj, "name")) == Ok(r2) {
      assert RunCompiled(EmailField, obj) == Ok(r1);
      assert RunCompiled(NameField, obj) == Ok(r2);
      RunTwoFields(EmailField, NameField, obj);
    }
  }

  /** A missing name fails `required`, and the type rule after it is never
      consulted. */
  lemma MissingNameRun(arg: SchemaArg, obj: JValue, email: string)
    requires ForDescriptors(LibRegistry, LibIndex, arg) == Ok([EmailField, NameField])
    requires obj.Obj? && Get(obj, "email") == Str(email) && email != "" && Get(obj, "name") == Undefined
    ensures Pipeline(LibRegistry, LibIndex, arg, obj)
            == Ok(SchemaResult(false, [FieldError("name", Str("Cannot be empty."))]))
  {
    StringPasses([StringRule], email);
    AbsentNameFails();
    UserRun(arg, obj, FieldResult(true, Undefined), FieldResult(false, Str("Cannot be empty.")));
    assert [] + [FieldError("name", Str("Cannot be empty."))] == [FieldError("name", Str("Cannot be empty."))];
  }

  lemma UserMissingName(email: string)
    requires email != ""
    ensures Pipeline(LibRegistry, LibIndex, SchemaObject(UserKeys, UserEntries), UserObject(map["email" := Str(email)]))
            == Ok(SchemaResult(false, [FieldError("name", Str("Cannot be empty."))]))
  {
    var obj := UserObject(map["email" := Str(email)]);
    assert Get(obj, "email") == Str(email);
    assert Get(obj, "name") == Undefined;
    UserCompiles();
    MissingNameRun(SchemaObject(UserKeys, UserEntries), obj, email);
  }

  /** Both fields of the wrong type: one error per field, in sorted order. */
  lemma WrongTypesRun(arg: SchemaArg, obj: JValue)
    requires ForDescriptors(LibRegistry, LibIndex, arg) == Ok([EmailField, NameField])
    requires obj.Obj? && Get(obj, "email") == Obj(1, map[], PlainProto) && Get(obj, "name") == Bool(false)
    ensures Pipeline(LibRegistry, LibIndex, arg, obj)
            == Ok(SchemaResult(false, [FieldError("email", Str("Expected string, got object.")),
                                       FieldError("name", Str("Expected string, got boolean."))]))
  {
    var e1 := Str("Expected string, got object.");
    var e2 := Str("Expected string, got boolean.");
    ObjectEmailFails(Get(obj, "email"));
    FalseNameFails(Get(obj, "name"));
    BothFailRun(arg, obj, e1, e2);
  }

  /** Both fields failing: both errors, email first. */
  lemma BothFailRun(arg: SchemaArg, obj: JValue, e1: JValue, e2: JValue)
    requires ForDescriptors(LibRegistry, LibIndex, arg) == Ok([EmailField, NameField])
    requires obj.Obj?
    ensures RunField([StringRule], Get(obj, "email")) == Ok(FieldResult(false, e1)) &&
            RunField([RequiredRule, StringRule], Get(obj, "name")) == Ok(FieldResult(false, e2)) ==>
            Pipeline(LibRegistry, LibIndex, arg, obj) == Ok(SchemaResult(false, [FieldError("email", e1), FieldError("name", e2)]))
  {
    UserRun(arg, obj, FieldResult(false, e1), FieldResult(false, e2));
    PairAppend(FieldError("email", e1), FieldError("name", e2));
  }

  lemma PairAppend<T>(a: T, b: T)
    ensures [a] + [b] == [a, b]
  {
  }

  lemma ObjectEmailFails(email: JValue)
    requires email == Obj(1, map[], PlainProto)
    ensures RunField([StringRule], email) == Ok(FieldResult(false, Str("Expected string, got object.")))
  {
    assert TypeOf(email) == "object";
    WrongTypeFails(email);
    ObjectText();
  }

  lemma FalseNameFails(name: JValue)
    requires name == Bool(false)
    ensures RunField([RequiredRule, StringRule], name) == Ok(FieldResult(false, Str("Expected string, got boolean.")))
  {
    assert TypeOf(name) == "boolean" && !IsEmpty(Src, name);
    PresentWrongTypeFails(name);
    BooleanText();
  }

  lemma UserWrongTypes()
    ensures Pipeline(LibRegistry, LibIndex, SchemaObject(UserKeys, UserEntries),
                     UserObject(map["name" := Bool(false), "email" := Obj(1, map[], PlainProto)]))
            == Ok(SchemaResult(false, [FieldError("email", Str("Expected string, got object.")),
                                       FieldError("name", Str("Expected string, got boolean."))]))
  {
    var obj := UserObject(map["name" := Bool(false), "email" := Obj(1, map[], PlainProto)]);
    assert Get(obj, "email") == Obj(1, map[], PlainProto);
    assert Get(obj, "name") == Bool(false);
    UserCompiles();
    WrongTypesRun(SchemaObject(UserKeys, UserEntries), obj);
  }

  lemma ObjectText()
    ensures TypeText("string", "object") == "Expected string, got object."
  {
  }

  lemma BooleanText()
    ensures TypeText("string", "boolean") == "Expected string, got boolean."
  {
  }

  /** Both fields present as non-empty strings: no errors. */
  lemma ValidRun(arg: SchemaArg, obj: JValue, name: string, email: string)
    requires ForDescriptors(LibRegistry, LibIndex, arg) == Ok([EmailField, NameField])
    requires obj.Obj? && Get(obj, "email") == Str(email) && Get(obj, "name") == Str(name)
    requires name != "" && email != ""
    ensures Pipeline(LibRegistry, LibIndex, arg, obj) == Ok(SchemaResult(true, []))
  {
    var r := FieldResult(true, Undefined);
    StringPasses([StringRule], email);
    StringPasses([RequiredRule, StringRule], name);
    UserRun(arg, obj, r, r);
    var none: seq<FieldError> := [];
    assert none + none == [];
  }

  lemma UserValid(name: string, email: string)
    requires name != "" && email != ""
    ensures Pipeline(LibRegistry, LibIndex, SchemaObject(UserKeys, UserEntries),
                     UserObject(map["name" := Str(name), "email" := Str(email)]))
            == Ok(SchemaResult(true, []))
  {
    var obj := UserObject(map["name" := Str(name), "email" := Str(email)]);
    assert Get(obj, "email") == Str(email);
    assert Get(obj, "name") == Str(name);
    UserCompiles();
    ValidRun(SchemaObject(UserKeys, UserEntries), obj, name, email);
  }
}

=== FILE: js_values.dfy ===
/** The JavaScript values a validator can be handed, and the few language
    operations the library applies to them: `typeof`, truthiness, `===`,
    `String(v)`, `instanceof`, `value.constructor` and `Object.keys`.

    Arrays, plain objects and dates are reference values: `===` compares
    them by identity, which `ref` stands for. A function value is
    identified by the class it constructs, so `instanceof` and the
    `class` option of instanceOf can compare class identities.
 */
module JsValues {
  import opened Text
  import opened Results

  /** A constructor function: its identity and its `name` property. */
  datatype ClassRef = ClassRef(id: nat, name: string)

  const ObjectClass := ClassRef(0, "Object")
  const ArrayClass := ClassRef(1, "Array")
  const DateClass := ClassRef(2, "Date")

  /** What an object's prototype chain offers: no `constructor` at all
      (`Object.create(null)`), or a constructor followed by the classes it
      inherits from. */
  datatype Proto = NoProto | Proto(ctor: ClassRef, ancestors: seq<ClassRef>)

  const PlainProto := Proto(ObjectClass, [])

  datatype JValue =
    | Undefined
    | Null
    | Bool(b: bool)
    | Num(n: int)
    | Str(s: string)
    | Arr(ref: nat, items: seq<JValue>)
    | Obj(ref: nat, fields: map<string, JValue>, proto: Proto)
      /** `source` is what `Function.prototype.toString` prints. */
    | Fun(fn: ClassRef, source: string)
      /** `text` is what `Date.prototype.toString` prints in the host's zone. */
    | Date(ref: nat, time: int, text: string)

  /** The `typeof` operator. */
  function TypeOf(v: JValue): string
  {
    match v
    case Undefined => "undefined"
    case Null => "object"
    case Bool(_) => "boolean"
    case Num(_) => "number"
    case Str(_) => "string"
    case Fun(_, _) => "function"
    case _ => "object"
  }

  /** JavaScript truthiness (`NaN` does not exist in this model). */
  predicate Truthy(v: JValue)
  {
    match v
    case Undefined => false
    case Null => false
    case Bool(b) => b
    case Num(n) => n != 0
    case Str(s) => s != ""
    case _ => true
  }

  /** The `===` operator: primitives by value, everything else by identity. */
  predicate StrictEquals(a: JValue, b: JValue)
  {
    match (a, b)
    case (Undefined, Undefined) => true
    case (Null, Null) => true
    case (Bool(x), Bool(y)) => x == y
    case (Num(x), Num(y)) => x == y
    case (Str(x), Str(y)) => x == y
    case (Arr(x, _), Arr(y, _)) => x == y
    case (Obj(x, _, _), Obj(y, _, _)) => x == y
    case (Fun(x, _), Fun(y, _)) => x == y
    case (Date(x, _, _), Date(y, _, _)) => x == y
    case _ => false
  }

  /** `list.indexOf(v) !== -1`: membership under `===`. */
  predicate StrictIn(v: JValue, list: seq<JValue>)
  {
    exists i :: 0 <= i < |list| && StrictEquals(v, list[i])
  }

  /** The own enumerable keys `Object.keys` reports for an object-typed
      value. Array indices are keys; a date has none. */
  function OwnKeyCount(v: JValue): nat
  {
    match v
    case Arr(_, items) => |items|
    case Obj(_, fields, _) => |fields.Keys|
    case _ => 0
  }

  /** Canonical array-index text: decimal digits with no leading zero,
      except "0" itself. */
  predicate IsIndexKey(key: string)
  {
    key != "" && AllDigits(key) && (key[0] != '0' || |key| == 1)
  }

  /** `obj[key]` for an own property: an object's fields, the `length`
      and the indices of strings and arrays, and a function's `name`.
      Anything else reads as `undefined`. */
  function Get(v: JValue, key: string): JValue
  {
    match v
    case Obj(_, fields, _) => if key in fields then fields[key] else Undefined
    case Str(s) =>
      if key == "length" then Num(|s|)
      else if IsIndexKey(key) && DigitsValue(key) < |s| then Str([s[DigitsValue(key)]])
      else Undefined
    case Arr(_, items) =>
      if key == "length" then Num(|items|)
      else if IsIndexKey(key) && DigitsValue(key) < |items| then items[DigitsValue(key)]
      else Undefined
    case Fun(fn, _) => if key == "name" then Str(fn.name) else Undefined
    case _ => Undefined
  }

  /** What `value[key]` reads for each kind of value: a string's or
      array's length and its element at `String(i)`, a function's name,
      an object's own field, and nothing on the remaining primitives and
      dates. */
  lemma OwnPropertyReads(v: JValue, i: nat, key: string)
    ensures v.Str? ==> Get(v, "length") == Num(|v.s|)
    ensures v.Arr? ==> Get(v, "length") == Num(|v.items|)
    ensures v.Str? && i < |v.s| ==> Get(v, NatToString(i)) == Str([v.s[i]])
    ensures v.Arr? && i < |v.items| ==> Get(v, NatToString(i)) == v.items[i]
    ensures v.Str? && i >= |v.s| ==> Get(v, NatToString(i)) == Undefined
    ensures v.Fun? ==> Get(v, "name") == Str(v.fn.name)
    ensures v.Obj? ==> Get(v, key) == (if key in v.fields then v.fields[key] else Undefined)
    ensures v.Undefined? || v.Null? || v.Bool? || v.Num? || v.Date? ==> Get(v, key) == Undefined
  {
    var t := NatToString(i);
    if i == 0 {
      assert t == [DigitChar(0)];
    }
    assert IsIndexKey(t);
  }

  /** `value.constructor` for object-typed values, when there is one. */
  function Constructor(v: JValue): Option<ClassRef>
  {
    match v
    case Arr(_, _) => Some(ArrayClass)
    case Date(_, _, _) => Some(DateClass)
    case Obj(_, _, NoProto) => None
    case Obj(_, _, Proto(c, _)) => Some(c)
    case _ => None
  }

  /** `v instanceof c`: `c` sits on the value's prototype chain. */
  predicate InstanceOf(v: JValue, c: ClassRef)
  {
    match v
    case Arr(_, _) => c == ArrayClass || c == ObjectClass
    case Date(_, _, _) => c == DateClass || c == ObjectClass
    case Obj(_, _, Proto(k, ancestors)) => c == k || c in ancestors
    case Fun(_, _) => c == ObjectClass
    case _ => false
  }

  /** `String(v)`, the conversion `'' + v`, `RegExp.prototype.test` and
      `exec` apply to a non-string argument. */
  function ToStr(v: JValue): string
    decreases v, 0
  {
    match v
    case Undefined => "undefined"
    case Null => "null"
    case Bool(b) => if b then "true" else "false"
    case Num(n) => IntToString(n)
    case Str(s) => s
    case Arr(_, items) => JoinItems(items)
    case Obj(_, _, _) => "[object Object]"
    case Fun(_, source) => source
    case Date(_, _, text) => text
  }

  /** `items.join(',')`, where `null` and `undefined` items print as ''. */
  function JoinItems(items: seq<JValue>): string
    decreases items, 1
  {
    if |items| == 0 then ""
    else
      var head := JoinItem(items[0]);
      if |items| == 1 then head else head + "," + JoinItems(items[1..])
  }

  function JoinItem(v: JValue): string
    decreases v, 2
  {
    if v.Undefined? || v.Null? then "" else ToStr(v)
  }

  /** Values for which typeof says "object" and that are not null. */
  predicate IsObjectLike(v: JValue)
  {
    v.Arr? || v.Obj? || v.Date?
  }

  /** The number a primitive converts to; `NaN` when it has no numeric reading. */
  datatype Numeric = NaN | Finite(n: int)

  /** `StringToNumber` on integral text: the empty string is 0, an optional
      sign followed by decimal digits is their value, anything else `NaN`. */
  function StringToNumber(s: string): (r: Numeric)
    ensures AllDigits(s) ==> r == Finite(if s == "" then 0 else DigitsValue(s))
    ensures |s| > 1 && s[0] == '-' && AllDigits(s[1..]) ==> r == Finite(0 - DigitsValue(s[1..]))
    ensures |s| > 1 && s[0] == '+' && AllDigits(s[1..]) ==> r == Finite(DigitsValue(s[1..]))
    ensures r == NaN <==> !AllDigits(s) && !(|s| > 1 && (s[0] == '-' || s[0] == '+') && AllDigits(s[1..]))
  {
    if s == "" then Finite(0)
    else if AllDigits(s) then Finite(DigitsValue(s))
    else if |s| > 1 && (s[0] == '-' || s[0] == '+') && AllDigits(s[1..]) then
      Finite(if s[0] == '-' then 0 - (DigitsValue(s[1..]) as int) else DigitsValue(s[1..]))
    else NaN
  }

  /** Converting the decimal text of any integer back gives the integer. */
  lemma NumberTextRoundTrip(n: int)
    ensures StringToNumber(IntToString(n)) == Finite(n)
  {
    if n < 0 {
      var t := NatToString(-n);
      assert ("-" + t)[1..] == t;
    }
  }

  /** `ToPrimitive(v, number)`: a date yields its time value through
      `valueOf`, other objects their string form through `toString`. */
  function ToPrimitive(v: JValue): (p: JValue)
    ensures !IsObjectLike(p) && !p.Fun?
  {
    match v
    case Date(_, t, _) => Num(t)
    case Arr(_, _) => Str(ToStr(v))
    case Obj(_, _, _) => Str(ToStr(v))
    case Fun(_, _) => Str(ToStr(v))
    case _ => v
  }

  /** `ToNumber` of a primitive. */
  function ToNumber(p: JValue): Numeric
  {
    match p
    case Null => Finite(0)
    case Bool(b) => Finite(if b then 1 else 0)
    case Num(n) => Finite(n)
    case Str(s) => StringToNumber(s)
    case _ => NaN
  }

  /** The abstract relational comparison `x < y`; `None` is its `undefined`
      outcome, reached when either side converts to `NaN`. Two string
      primitives compare by characters, everything else by number. */
  function LessThan(x: JValue, y: JValue): Option<bool>
  {
    var px := ToPrimitive(x);
    var py := ToPrimitive(y);
    if px.Str? && py.Str? then Some(StringLess(px.s, py.s))
    else
      match (ToNumber(px), ToNumber(py))
      case (Finite(a), Finite(b)) => Some(a < b)
      case _ => None
  }

  /** `x >= y`: false when the comparison is undefined. */
  predicate AtLeast(x: JValue, y: JValue)
  {
    LessThan(x, y) == Some(false)
  }

  /** `x <= y`, evaluated as `!(y < x)` with an undefined comparison false. */
  predicate AtMost(x: JValue, y: JValue)
  {
    LessThan(y, x) == Some(false)
  }

  /** On numbers the operators are the integer order. */
  lemma CompareNumbers(a: int, b: int)
    ensures AtLeast(Num(a), Num(b)) <==> a >= b
    ensures AtMost(Num(a), Num(b)) <==> a <= b
  {
  }

  /** On strings they are the lexicographic order, reflexive at equality. */
  lemma CompareStrings(a: string, b: string)
    ensures AtMost(Str(a), Str(b)) <==> a == b || StringLess(a, b)
    ensures AtLeast(Str(a), Str(b)) <==> a == b || StringLess(b, a)
  {
    StringLessTotal(a, b);
    StringLessIrreflexive(a);
    if StringLess(a, b) && StringLess(b, a) {
      StringLessTransitive(a, b, a);
    }
  }

  /** `undefined` and non-numeric text compare false both ways against
      any number. */
  lemma CompareNaN(x: JValue, n: int)
    requires x.Undefined? || (x.Str? && ToNumber(x) == NaN)
    ensures !AtLeast(x, Num(n)) && !AtMost(x, Num(n))
  {
  }

  /** A date compares by its time value. */
  lemma CompareDates(r: nat, t: int, text: string, a: int, b: int)
    ensures AtLeast(Date(r, t, text), Num(a)) && AtMost(Date(r, t, text), Num(b)) <==> a <= t <= b
  {
  }
}

=== FILE: patterns.dfy ===
/** Hand-written recognisers for the fixed regular expressions of the
    catalog (dist/validating.js:552-568, 586, 615, 647, 674, 704, 734).

    Each recogniser is written in the shape of its regular expression and
    is paired with a lemma that states, independently, which strings it
    accepts: the octet alternatives are exactly the 1-3 digit numbers up
    to 255, the host scan is exactly "a label, a dot and an alphanumeric",
    a datetime is exactly a date, an optional separator and a time.
 */
module Patterns {
  import opened Text
  import opened Results

  /* ---------------------------------------------------------------- dots */

  predicate NoDot(s: string) {
    forall i :: 0 <= i < |s| ==> s[i] != '.'
  }

  function JoinDots(parts: seq<string>): string
    requires |parts| > 0
  {
    if |parts| == 1 then parts[0] else parts[0] + "." + JoinDots(parts[1..])
  }

  /** Index of the first '.' of `s`, or |s| when there is none. */
  function FirstDot(s: string): (i: nat)
    ensures i <= |s| && NoDot(s[..i])
    ensures i < |s| ==> s[i] == '.'
  {
    if |s| == 0 then 0
    else if s[0] == '.' then 0
    else
      var j := FirstDot(s[1..]);
      assert s[..j + 1] == [s[0]] + s[1..][..j];
      j + 1
  }

  /** `s.split('.')`: the dot-free pieces that join back to `s`. */
  function SplitDots(s: string): (parts: seq<string>)
    ensures |parts| > 0
    ensures forall k :: 0 <= k < |parts| ==> NoDot(parts[k])
    ensures JoinDots(parts) == s
    decreases |s|
  {
    var i := FirstDot(s);
    if i == |s| then
      assert s[..i] == s;
      [s]
    else
      var rest := SplitDots(s[i + 1..]);
      var parts := [s[..i]] + rest;
      assert parts[1..] == rest;
      assert s == s[..i] + "." + s[i + 1..];
      parts
  }

  lemma {:induction false} FirstDotOfJoin(parts: seq<string>)
    requires |parts| > 0 && forall k :: 0 <= k < |parts| ==> NoDot(parts[k])
    ensures FirstDot(JoinDots(parts)) == |parts[0]|
    ensures |parts| > 1 ==> JoinDots(parts)[|parts[0]| + 1..] == JoinDots(parts[1..])
    ensures JoinDots(parts)[..|parts[0]|] == parts[0]
  {
    var s := JoinDots(parts);
    if |parts| > 1 {
      assert s == parts[0] + "." + JoinDots(parts[1..]);
      assert s[|parts[0]|] == '.';
      assert s[|parts[0]| + 1..] == JoinDots(parts[1..]);
    }
  }

  /** Splitting undoes joining dot-free pieces: together with SplitDots'
      contract, the split is the unique dot-free decomposition. */
  lemma {:induction false} SplitJoin(parts: seq<string>)
    requires |parts| > 0 && forall k :: 0 <= k < |parts| ==> NoDot(parts[k])
    ensures SplitDots(JoinDots(parts)) == parts
    decreases |parts|
  {
    FirstDotOfJoin(parts);
    var s := JoinDots(parts);
    if |parts| > 1 {
      SplitJoin(parts[1..]);
      assert parts == [parts[0]] + parts[1..];
    }
  }

  /* --------------------------------------------------------- url, email */

  /** A character of `[A-Z0-9_-]` under the `i` flag. */
  predicate IsLabelChar(c: char) {
    IsAlnum(c) || c == '_' || c == '-'
  }

  /** `[A-Z0-9][A-Z0-9_-]*` under the `i` flag, matched completely. */
  predicate IsLabel(s: string) {
    |s| > 0 && IsAlnum(s[0]) && forall i :: 1 <= i < |s| ==> IsLabelChar(s[i])
  }

  /** Length of the longest run of label characters that starts `s`. */
  function LabelRun(s: string): (n: nat)
    ensures n <= |s|
    ensures forall i :: 0 <= i < n ==> IsLabelChar(s[i])
    ensures n < |s| ==> !IsLabelChar(s[n])
  {
    if |s| > 0 && IsLabelChar(s[0]) then 1 + LabelRun(s[1..]) else 0
  }

  /** Whether `L(\.L)+` matches at the start of `s`, decided by one scan:
      the first label must run up to the first non-label character, which
      must be a dot followed by the first character of a second label. */
  predicate HostPrefixScan(s: string) {
    && |s| > 0
    && IsAlnum(s[0])
    && var k := 1 + LabelRun(s[1..]);
       k + 1 < |s| && s[k] == '.' && IsAlnum(s[k + 1])
  }

  /** The same language stated directly: some label, then a dot, then an
      alphanumeric (a second label of length at least one). Repeating
      `(\.L)` more than once never matters for an unanchored end. */
  predicate HasHostPrefix(s: string) {
    exists i :: 0 < i && i + 1 < |s| && IsLabel(s[..i]) && s[i] == '.' && IsAlnum(s[i + 1])
  }

  lemma HostPrefixScanCorrect(s: string)
    ensures HostPrefixScan(s) <==> HasHostPrefix(s)
  {
    if HostPrefixScan(s) {
      var k := 1 + LabelRun(s[1..]);
      assert IsLabel(s[..k]) by {
        forall i | 1 <= i < k ensures IsLabelChar(s[..k][i]) {
          assert s[..k][i] == s[1..][i - 1];
        }
      }
    }
    if HasHostPrefix(s) {
      var i :| 0 < i && i + 1 < |s| && IsLabel(s[..i]) && s[i] == '.' && IsAlnum(s[i + 1]);
      assert s[..i][0] == s[0];
      assert forall j :: 0 <= j < i - 1 ==> IsLabelChar(s[1..][j]) by {
        forall j | 0 <= j < i - 1 ensures IsLabelChar(s[1..][j]) {
          assert s[1..][j] == s[..i][j + 1];
        }
      }
      assert s[1..][i - 1] == s[i];
    }
  }

  /** The scheme alternatives of `'(' + schemes.join('|') + ')'`: an empty
      list joins to the single empty alternative. */
  function SchemeAlternatives(schemes: seq<string>): (alts: seq<string>)
    ensures |alts| > 0
  {
    if |schemes| == 0 then [""] else schemes
  }

  /** `scheme://` prefixes `s` (case-insensitively) and a host follows. */
  predicate SchemeThenHost(scheme: string, s: string) {
    var p := scheme + "://";
    |p| <= |s| && SameIgnoringCase(s[..|p|], p) && HostPrefixScan(s[|p|..])
  }

  datatype UrlMatch = NoMatch | Matched(withScheme: bool)

  /** `pattern.exec(s)` for `^((schemes):\/\/)?(L(\.L)+)` with the `i`
      flag: the engine first tries the optional scheme group, every
      alternative in turn, and only then matches the host at position 0,
      with group 1 undefined. */
  function UrlExec(schemes: seq<string>, s: string): (m: UrlMatch)
    ensures m == Matched(true) <==>
              exists k :: 0 <= k < |SchemeAlternatives(schemes)| && SchemeThenHost(SchemeAlternatives(schemes)[k], s)
    ensures m == NoMatch ==> !HasHostPrefix(s)
    ensures m == Matched(false) ==> HasHostPrefix(s)
  {
    var alts := SchemeAlternatives(schemes);
    if exists k :: 0 <= k < |alts| && SchemeThenHost(alts[k], s) then
      Matched(true)
    else
      HostPrefixScanCorrect(s);
      if HostPrefixScan(s) then Matched(false) else NoMatch
  }

  /** `L(\.L)+` matched completely: at least two dot-separated labels. */
  predicate IsDottedHost(t: string) {
    var parts := SplitDots(t);
    |parts| >= 2 && forall k :: 0 <= k < |parts| ==> IsLabel(parts[k])
  }

  /** `/@(L(\.L)+)$/i.test(s)`: some '@' is followed by a dotted host that
      runs to the end of the string. */
  predicate EmailMatch(s: string) {
    exists p :: 0 <= p < |s| && s[p] == '@' && IsDottedHost(s[p + 1..])
  }

  lemma LabelHasNoDot(l: string)
    requires IsLabel(l)
    ensures NoDot(l)
  {
    assert forall i :: 0 <= i < |l| ==> IsLabelChar(l[i]);
  }

  /** Labels joined by dots form a dotted host, and a dotted host is such a
      join (SplitDots' contract): the two directions of the email host. */
  lemma DottedHostOfLabels(labels: seq<string>)
    requires |labels| >= 2 && forall k :: 0 <= k < |labels| ==> IsLabel(labels[k])
    ensures IsDottedHost(JoinDots(labels))
  {
    forall k | 0 <= k < |labels| ensures NoDot(labels[k]) {
      LabelHasNoDot(labels[k]);
    }
    SplitJoin(labels);
  }

  /* ---------------------------------------------------------------- ipv4 */

  /** One group of the IPv4 pattern, as its regular expression spells it:
      `25[0-5]|2[0-4][0-9]|[01]?[0-9][0-9]?`. */
  predicate OctetAlternatives(g: string) {
    || (|g| == 3 && g[0] == '2' && g[1] == '5' && '0' <= g[2] <= '5')
    || (|g| == 3 && g[0] == '2' && '0' <= g[1] <= '4' && IsDigit(g[2]))
    || (|g| == 3 && (g[0] == '0' || g[0] == '1') && IsDigit(g[1]) && IsDigit(g[2]))
    || (|g| == 2 && IsDigit(g[0]) && IsDigit(g[1]))
    || (|g| == 1 && IsDigit(g[0]))
  }

  /** The intended reading: one to three digits denoting at most 255. */
  predicate IsOctet(g: string) {
    1 <= |g| <= 3 && AllDigits(g) && DigitsValue(g) <= 255
  }

  lemma DigitsValueOfThree(g: string)
    requires |g| == 3 && AllDigits(g)
    ensures DigitsValue(g) == DigitValue(g[0]) * 100 + DigitValue(g[1]) * 10 + DigitValue(g[2])
  {
    var ab := g[..2];
    assert ab == g[..|g| - 1];
    DigitsValueOfTwo(ab);
  }

  lemma DigitsValueOfTwo(g: string)
    requires |g| == 2 && AllDigits(g)
    ensures DigitsValue(g) == DigitValue(g[0]) * 10 + DigitValue(g[1])
  {
    var a := g[..1];
    assert a == g[..|g| - 1];
    DigitsValueOfOne(a);
  }

  lemma DigitsValueOfOne(g: string)
    requires |g| == 1 && AllDigits(g)
    ensures DigitsValue(g) == DigitValue(g[0])
  {
    assert g[..|g| - 1] == [];
  }

  lemma OctetAlternativesExact(g: string)
    ensures OctetAlternatives(g) <==> IsOctet(g)
  {
    if |g| == 3 && AllDigits(g) {
      DigitsValueOfThree(g);
    } else if |g| == 2 && AllDigits(g) {
      DigitsValueOfTwo(g);
    } else if |g| == 1 && AllDigits(g) {
      DigitsValueOfOne(g);
    }
  }

  /** The anchored IPv4 pattern: exactly four groups joined by dots. */
  predicate IPv4Match(s: string) {
    var parts := SplitDots(s);
    |parts| == 4 && forall k :: 0 <= k < 4 ==> OctetAlternatives(parts[k])
  }

  /** Every accepted address is four octets joined by dots. */
  lemma IPv4Sound(s: string)
    requires IPv4Match(s)
    ensures var parts := SplitDots(s);
            |parts| == 4 && JoinDots(parts) == s && forall k :: 0 <= k < 4 ==> IsOctet(parts[k])
  {
    var parts := SplitDots(s);
    forall k | 0 <= k < 4 ensures IsOctet(parts[k]) {
      OctetAlternativesExact(parts[k]);
    }
  }

  /** Every four octets joined by dots are accepted. */
  lemma IPv4Complete(a: string, b: string, c: string, d: string)
    requires IsOctet(a) && IsOctet(b) && IsOctet(c) && IsOctet(d)
    ensures IPv4Match(a + "." + b + "." + c + "." + d)
  {
    var quad := [a, b, c, d];
    forall k | 0 <= k < 4 ensures NoDot(quad[k]) && OctetAlternatives(quad[k]) {
      OctetAlternativesExact(quad[k]);
    }
    assert JoinDots(quad) == a + "." + b + "." + c + "." + d by {
      assert quad[1..][1..][1..] == [d];
      assert quad[1..][1..] == [c, d];
      assert quad[1..] == [b, c, d];
      assert JoinDots([c, d]) == c + "." + d;
      assert JoinDots([b, c, d]) == b + "." + (c + "." + d);
    }
    SplitJoin(quad);
  }

  /* ------------------------------------------------------------ hostname */

  /** `(?:[a-zA-Z0-9][-a-zA-Z0-9]{0,61})?[a-zA-Z0-9]`: 1 to 63 characters,
      alphanumeric at both ends, hyphens allowed inside (RFC 1123 section
      2.1 label syntax). */
  predicate IsHostLabel(l: string) {
    && 1 <= |l| <= 63
    && IsAlnum(l[0]) && IsAlnum(l[|l| - 1])
    && forall i :: 0 <= i < |l| ==> IsAlnum(l[i]) || l[i] == '-'
  }

  /** `[a-zA-Z][-a-zA-Z0-9]{0,61}[a-zA-Z0-9]|[a-zA-Z]`: the last label must
      start with a letter. */
  predicate IsTopLabel(l: string) {
    IsHostLabel(l) && IsAsciiLetter(l[0])
  }

  /** Labels joined by dots, each a host label and the last a top label. */
  predicate HostLabels(parts: seq<string>) {
    && |parts| > 0
    && (forall k :: 0 <= k < |parts| - 1 ==> IsHostLabel(parts[k]))
    && IsTopLabel(parts[|parts| - 1])
  }

  /** The anchored hostname pattern, with its optional trailing dot. */
  predicate HostnameMatch(s: string) {
    var body := if |s| > 0 && s[|s| - 1] == '.' then s[..|s| - 1] else s;
    HostLabels(SplitDots(body))
  }

  lemma {:induction false} JoinDotsLast(parts: seq<string>)
    requires |parts| > 0 && |parts[|parts| - 1]| > 0
    ensures var s := JoinDots(parts); |s| > 0 && s[|s| - 1] == parts[|parts| - 1][|parts[|parts| - 1]| - 1]
  {
    if |parts| > 1 {
      JoinDotsLast(parts[1..]);
    }
  }

  /** A hostname is exactly a list of labels of the right shapes, joined by
      dots, with or without one trailing dot. */
  lemma HostnameOfLabels(parts: seq<string>, trailingDot: bool)
    requires |parts| > 0 && forall k :: 0 <= k < |parts| ==> NoDot(parts[k])
    requires parts[|parts| - 1] != ""
    ensures HostnameMatch(JoinDots(parts) + (if trailingDot then "." else "")) <==> HostLabels(parts)
  {
    var joined := JoinDots(parts);
    var s := joined + (if trailingDot then "." else "");
    SplitJoin(parts);
    JoinDotsLast(parts);
    if trailingDot {
      assert s[..|s| - 1] == joined;
    } else {
      assert s == joined;
      assert NoDot(parts[|parts| - 1]);
    }
  }

  /* ------------------------------------------------- date, time, datetime */

  /** `\d{n}` at position `i` of `s`. */
  predicate DigitsAt(s: string, i: nat, n: nat) {
    i + n <= |s| && AllDigits(s[i..i + n])
  }

  /** `^(\d{4})-(\d{2})-(\d{2})` as a layout, and its month and day bounds. */
  predicate DateLayout(s: string) {
    |s| == 10 && DigitsAt(s, 0, 4) && s[4] == '-' && DigitsAt(s, 5, 2) && s[7] == '-' && DigitsAt(s, 8, 2)
  }

  predicate DateBounds(s: string)
    requires DateLayout(s)
  {
    DigitsValue(s[5..7]) < 13 && DigitsValue(s[8..10]) < 32
  }

  /** `(\d{2}):(\d{2}):(\d{2})` as a layout, and its hour/minute/second bounds. */
  predicate TimeLayout(s: string) {
    |s| == 8 && DigitsAt(s, 0, 2) && s[2] == ':' && DigitsAt(s, 3, 2) && s[5] == ':' && DigitsAt(s, 6, 2)
  }

  predicate TimeBounds(s: string)
    requires TimeLayout(s)
  {
    DigitsValue(s[0..2]) < 24 && DigitsValue(s[3..5]) < 60 && DigitsValue(s[6..8]) < 60
  }

  /** The date validator: exec of `^(\d{4})-(\d{2})-(\d{2})$`, then only the
      upper bounds month < 13 and day < 32. */
  predicate DateMatch(s: string) {
    DateLayout(s) && DateBounds(s)
  }

  /** The time validator: exec of `^(\d{2}):(\d{2}):(\d{2})$`, then hour < 24,
      minute < 60 and second < 60. */
  predicate TimeMatch(s: string) {
    TimeLayout(s) && TimeBounds(s)
  }

  /** JavaScript's `\s`. */
  predicate IsJsSpace(c: char) {
    || c == ' ' || c == '\t' || c == '\n' || c == '\r' || c == '\U{000B}' || c == '\U{000C}'
    || c == '\U{00A0}' || c == '\U{1680}' || ('\U{2000}' <= c <= '\U{200A}')
    || c == '\U{2028}' || c == '\U{2029}' || c == '\U{202F}' || c == '\U{205F}'
    || c == '\U{3000}' || c == '\U{FEFF}'
  }

  /** The optional separator `[\s|T]` between date and time. */
  predicate IsDateTimeSeparator(c: char) {
    IsJsSpace(c) || c == '|' || c == 'T'
  }

  /** Characters the unescaped `.` of the fraction group does not match. */
  predicate IsLineTerminator(c: char) {
    c == '\n' || c == '\r' || c == '\U{2028}' || c == '\U{2029}'
  }

  /** `(?:.\d{1,3})?Z?$` after the seconds. The `.` is unescaped in the
      source, so any character except a line terminator may introduce the
      fraction. */
  predicate FractionTail(t: string) {
    || t == ""
    || t == "Z"
    || (2 <= |t| <= 4 && !IsLineTerminator(t[0]) && AllDigits(t[1..]))
    || (3 <= |t| <= 5 && !IsLineTerminator(t[0]) && t[|t| - 1] == 'Z' && AllDigits(t[1..|t| - 1]))
  }

  /** The datetime validator's pattern and bounds. The separator is taken
      when present; a digit never is one, so the choice is forced. */
  predicate DateTimeMatch(s: string) {
    && |s| >= 18
    && DateLayout(s[..10])
    && var rest := if IsDateTimeSeparator(s[10]) then s[11..] else s[10..];
       && |rest| >= 8
       && TimeLayout(rest[..8])
       && FractionTail(rest[8..])
       && DateBounds(s[..10])
       && TimeBounds(rest[..8])
  }

  /** A datetime is exactly a date, an optional separator, a time and a
      fraction tail, with the bounds of the date and time validators. */
  lemma DateTimeDecomposes(d: string, sep: string, t: string, z: string)
    requires |d| == 10 && |t| == 8
    requires |sep| == 0 || (|sep| == 1 && IsDateTimeSeparator(sep[0]))
    requires |sep| == 0 ==> !IsDateTimeSeparator(t[0])
    ensures DateTimeMatch(d + sep + t + z) <==> DateMatch(d) && TimeMatch(t) && FractionTail(z)
  {
    var s := d + sep + t + z;
    assert s[..10] == d;
    if |sep| == 1 {
      assert s[10] == sep[0];
      assert s[11..][..8] == t && s[11..][8..] == z;
    } else {
      assert s[10..] == t + z;
      assert s[10] == t[0];
      assert s[10..][..8] == t && s[10..][8..] == z;
    }
  }
}

=== FILE: registry.dfy ===
/** The validator registry: `define`, `create` and the registration of the
    built-in validators at load time (src/index.js:13-42, 165-175;
    dist/validating.js:13-38, 98-103).

    A registered class is represented by its prototype instance, the
    validator `create` would return without options; `create` then applies
    an options record the way the class library's `configure` does.
 */
module Registry {
  import opened Results
  import opened JsValues
  import opened ValidatorBase
  import opened Catalog

  /** The configuration object handed to `create`. A field is `None` when
      the object does not define it (or defines it as `undefined`), in
      which case the validator keeps its default. */
  datatype Options = Options(
    message: Option<string>,
    messages: Option<map<string, string>>,
    allowEmpty: Option<bool>,
    validate: Option<JValue -> JValue>,
    typeName: Option<string>,
    cls: Option<JValue>,
    min: Option<int>,
    max: Option<int>,
    trueValues: Option<seq<JValue>>,
    falseValues: Option<seq<JValue>>,
    pattern: Option<string -> bool>,
    inList: Option<JValue>,
    between: Option<JValue>,
    schemes: Option<seq<string>>,
    strict: Option<bool>,
    v4: Option<bool>,
    v6: Option<bool>)

  /** `create(name)` with no configuration object. */
  const NoOptions := Options(None, None, None, None, None, None, None, None, None, None, None, None, None, None, None, None, None)

  function Or<T>(given: Option<T>, current: T): T
  {
    if given.Some? then given.value else current
  }

  /** The kind-specific options. A `validate` option replaces the method
      itself, whatever the kind. */
  function ConfigureKind(k: Kind, o: Options): Kind
  {
    if o.validate.Some? then Custom(o.validate.value)
    else
      match k
      case TypeCheck(t) => TypeCheck(Or(o.typeName, t))
      case InstanceCheck(c) => InstanceCheck(Or(o.cls, c))
      case Length(lo, hi) => Length(if o.min.Some? then o.min else lo, if o.max.Some? then o.max else hi)
      case Number(lo, hi) => Number(if o.min.Some? then o.min else lo, if o.max.Some? then o.max else hi)
      case Boolean(tv, fv) => Boolean(Or(o.trueValues, tv), Or(o.falseValues, fv))
      case Regexp(p) => Regexp(if o.pattern.Some? then Some(o.pattern.value) else p)
      case Range(i, b) => Range(Or(o.inList, i), Or(o.between, b))
      case Url(s, strict) => Url(Or(o.schemes, s), Or(o.strict, strict))
      case Ip(v4, v6, p) => Ip(Or(o.v4, v4), Or(o.v6, v6), p)
      case _ => k
  }

  /** The class library's `configure`: a subclass's own options first
      (`messages` replaces the whole map, then the kind's fields), then the
      base class's (`message`, which writes `messages.default`, and
      `allowEmpty`). */
  function Configure(p: Validator, o: Options): (v: Validator)
    ensures v.build == p.build
    ensures v.allowEmpty == Or(o.allowEmpty, p.allowEmpty)
    ensures o.message.Some? ==> GetMessage(v) == o.message
    ensures forall key :: key != DefaultKey ==>
              (key in v.messages <==> key in Or(o.messages, p.messages)) &&
              (key in v.messages ==> v.messages[key] == Or(o.messages, p.messages)[key])
    ensures o.message.None? ==> v.messages == Or(o.messages, p.messages)
  {
    var messages := Or(o.messages, p.messages);
    var base := Validator(ConfigureKind(p.kind, o), Or(o.allowEmpty, p.allowEmpty), messages, p.build);
    if o.message.Some? then SetMessage(base, o.message.value) else base
  }

  /** Creating without options yields the prototype itself. */
  lemma ConfigureNothing(p: Validator)
    ensures Configure(p, NoOptions) == p
  {
  }

  /** A `message` option wins over a `messages.default` given alongside it. */
  lemma MessageBeatsMessages(p: Validator, o: Options, m: string)
    requires o.message == Some(m) && o.messages.Some? && DefaultKey in o.messages.value
    ensures Configure(p, o).messages[DefaultKey] == m
    ensures GetMessage(Configure(p, o)) == Some(m)
  {
    MessageAlias(Validator(ConfigureKind(p.kind, o), Or(o.allowEmpty, p.allowEmpty), o.messages.value, p.build), m);
  }

  /** `exports.validators`: the registered classes by name, all built on
      the same base class. */
  datatype Registry = Registry(build: Build, classes: map<string, Validator>)

  /** A fresh instance of a class with its defaults. */
  function Prototype(build: Build, k: Kind): Validator
  {
    Validator(k, false, DefaultMessages(k), build)
  }

  /** `new Validator(...)` without options: the base class. */
  function BasePrototype(build: Build): (v: Validator)
    ensures v.kind == Base && !v.allowEmpty && GetMessage(v) == Some("Invalid value.")
  {
    Prototype(build, Base)
  }

  /** `define(name, descriptors)`: the class is stored under its name,
      replacing any previous entry. */
  function Define(reg: Registry, name: string, proto: Validator): (r: Registry)
    ensures r.build == reg.build
    ensures name in r.classes && r.classes[name] == proto
    ensures r.classes.Keys == reg.classes.Keys + {name}
    ensures forall other :: other in reg.classes && other != name ==> r.classes[other] == reg.classes[other]
  {
    Registry(reg.build, reg.classes[name := proto])
  }

  /** `create(name, properties)`: `validators[name].create(properties)`,
      which throws a TypeError when nothing is registered under `name`. */
  function Create(reg: Registry, name: string, o: Options): (r: Result<Validator>)
    ensures r.Err? <==> name !in reg.classes
    ensures r.Err? ==> r.error == NotRegistered(name)
  {
    if name in reg.classes then Ok(Configure(reg.classes[name], o)) else Err(NotRegistered(name))
  }

  /** What `create` returns after `define`: the defined class, configured;
      every other name is unaffected. */
  lemma DefineThenCreate(reg: Registry, name: string, proto: Validator, other: string, o: Options)
    ensures Create(Define(reg, name, proto), name, o) == Ok(Configure(proto, o))
    ensures Create(Define(reg, name, proto), name, NoOptions) == Ok(proto)
    ensures other != name ==> Create(Define(reg, name, proto), other, o) == Create(reg, other, o)
  {
  }

  /** The kind each built-in name registers, with its default
      configuration. `v6Pattern` stands for the IPv6 regular expression. */
  function BuiltinKind(name: string, v6Pattern: string -> bool): Option<Kind>
  {
    match name
    case "required" => Some(Required)
    case "type" => Some(TypeCheck("string"))
    case "instanceOf" => Some(InstanceCheck(Undefined))
    case "length" => Some(Length(None, None))
    case "number" => Some(Number(None, None))
    case "boolean" => Some(Boolean([Bool(true)], [Bool(false)]))
    case "regexp" => Some(Regexp(None))
    case "range" => Some(Range(Undefined, Undefined))
    case "url" => Some(Url(["http", "https"], true))
    case "email" => Some(Email)
    case "ip" => Some(Ip(true, true, v6Pattern))
    case "hostname" => Some(Hostname)
    case "date" => Some(DateString)
    case "time" => Some(TimeString)
    case "datetime" => Some(DateTimeString)
    case _ => None
  }

  /** The names each copy of the catalog exports, in export order. */
  const DistNames := ["required", "type", "instanceOf", "length", "number", "boolean", "regexp",
                      "range", "url", "email", "ip", "hostname", "date", "time", "datetime"]
  const SrcNames := ["required", "type", "instanceOf", "length", "number", "boolean"]
  const LibNames := ["required", "type", "instanceOf"]

  /** The registration loop run at load time: `define` for every exported
      catalog entry, in order, starting from an empty registry. */
  method RegisterBuiltins(build: Build, names: seq<string>, v6Pattern: string -> bool) returns (reg: Registry)
    requires forall i :: 0 <= i < |names| ==> BuiltinKind(names[i], v6Pattern).Some?
    ensures reg.build == build
    ensures reg.classes.Keys == set i | 0 <= i < |names| :: names[i]
    ensures forall n :: n in reg.classes ==> reg.classes[n] == Prototype(build, BuiltinKind(n, v6Pattern).value)
  {
    reg := Registry(build, map[]);
    var i := 0;
    while i < |names|
      invariant 0 <= i <= |names|
      invariant reg.build == build
      invariant reg.classes.Keys == set j | 0 <= j < i :: names[j]
      invariant forall n :: n in reg.classes ==> BuiltinKind(n, v6Pattern).Some? && reg.classes[n] == Prototype(build, BuiltinKind(n, v6Pattern).value)
    {
      reg := Define(reg, names[i], Prototype(build, BuiltinKind(names[i], v6Pattern).value));
      i := i + 1;
    }
  }

  /** `create('required', {message: 'Required!'}).message` reads back
      'Required!' (test/test.js:19-25). */
  lemma CreateWithMessage(reg: Registry)
    requires "required" in reg.classes && reg.classes["required"] == Prototype(reg.build, Required)
    ensures Create(reg, "required", NoOptions.(message := Some("Required!"))).Ok?
    ensures GetMessage(Create(reg, "required", NoOptions.(message := Some("Required!"))).value) == Some("Required!")
    ensures Create(reg, "required", NoOptions.(message := Some("Required!"))).value.kind == Required
  {
  }
}

=== FILE: resolver.dfy ===
/** `processRule`: turning one entry of a descriptor's `rules` array into
    a validator instance (src/index.js:132-163; lib/index.js:97-119; the
    dist copy at dist/validating.js:78-97 does not accept strings).
 */
module Resolver {
  import opened Results
  import opened JsValues
  import opened ValidatorBase
  import opened Catalog
  import opened Registry

  /** The four shapes a rule can take. An array rule is `[name, config]`
      (`config` absent when the array has one element); an object rule is
      `{name, ...config}`, and the object itself is the configuration. */
  datatype RuleSpec =
    | NameRule(name: string)
    | FnRule(check: JValue -> JValue)
    | ArrayRule(head: JValue, config: Option<Options>)
    | ObjectRule(nameField: JValue, properties: Options)

  /** The name a non-string, non-function rule supplies:
      `(Array.isArray(rule) && rule[0]) || rule.name`, where an array has no
      `name`. It is looked up as a property key, so it is stringified. */
  function DerivedName(rule: RuleSpec): Option<string>
    requires rule.ArrayRule? || rule.ObjectRule?
  {
    match rule
    case ArrayRule(head, _) => if Truthy(head) then Some(ToStr(head)) else None
    case ObjectRule(n, _) => if Truthy(n) then Some(ToStr(n)) else None
  }

  function ProcessRule(reg: Registry, rule: RuleSpec): (r: Result<Validator>)
    ensures rule.NameRule? ==> r == Create(reg, rule.name, NoOptions)
    ensures rule.FnRule? ==> r == Ok(Configure(BasePrototype(reg.build), NoOptions.(validate := Some(rule.check))))
    ensures (rule.ArrayRule? || rule.ObjectRule?) ==> (r == Err(NameNotSpecified) <==> DerivedName(rule).None?)
    ensures rule.ArrayRule? && DerivedName(rule).Some? ==>
              r == Create(reg, DerivedName(rule).value, Or(rule.config, NoOptions))
    ensures rule.ObjectRule? && DerivedName(rule).Some? ==> r == Create(reg, DerivedName(rule).value, rule.properties)
  {
    match rule
    case NameRule(n) => Create(reg, n, NoOptions)
    case FnRule(f) => Ok(Configure(BasePrototype(reg.build), NoOptions.(validate := Some(f))))
    case ArrayRule(head, config) =>
      if !Truthy(head) then Err(NameNotSpecified)
      else Create(reg, ToStr(head), Or(config, NoOptions))
    case ObjectRule(n, config) =>
      if !Truthy(n) then Err(NameNotSpecified)
      else Create(reg, ToStr(n), config)
  }

  /** The dist copy: without the string case, a bare name has neither a
      first element nor a `name` property and fails the precondition. */
  function ProcessRuleDist(reg: Registry, rule: RuleSpec): (r: Result<Validator>)
    ensures rule.NameRule? ==> r == Err(NameNotSpecified)
    ensures !rule.NameRule? ==> r == ProcessRule(reg, rule)
  {
    if rule.NameRule? then Err(NameNotSpecified) else ProcessRule(reg, rule)
  }

  /** An inline function becomes a validator that returns what the
      function returns, with no `allowEmpty` short-circuit. */
  lemma FunctionRuleValidates(reg: Registry, f: JValue -> JValue, value: JValue)
    ensures ProcessRule(reg, FnRule(f)).Ok?
    ensures Validate(ProcessRule(reg, FnRule(f)).value, value) == Ok(OutcomeOf(f(value)))
    ensures Validate(ProcessRule(reg, FnRule(f)).value, value) == Ok(Pass) <==> f(value) == Bool(true)
  {
  }

  /** The four shapes name the same validator the same way: `'required'`,
      `['required']` and `{name: 'required'}` all create it without
      options. */
  lemma ShapesAgree(reg: Registry, name: string)
    requires name != ""
    ensures ProcessRule(reg, ArrayRule(Str(name), None)) == ProcessRule(reg, NameRule(name))
    ensures ProcessRule(reg, ObjectRule(Str(name), NoOptions)) == ProcessRule(reg, NameRule(name))
    ensures ProcessRule(reg, NameRule(name)).Ok? <==> name in reg.classes
  {
  }

  /** A rule never resolves to a validator of a name that is not registered. */
  lemma ResolvedRulesAreRegistered(reg: Registry, rule: RuleSpec)
    requires rule.NameRule? || rule.ArrayRule? || rule.ObjectRule?
    requires ProcessRule(reg, rule).Ok?
    ensures rule.NameRule? ==> rule.name in reg.classes
    ensures !rule.NameRule? ==> DerivedName(rule).Some? && DerivedName(rule).value in reg.classes
  {
  }
}

=== FILE: results.dfy ===
/** Failure-compatible wrappers shared by every module of the model.

    The library separates two kinds of "no": a value that does not pass a
    rule (an ordinary string message, see `Outcome` in ValidatorBase) and a
    caller bug — a missing option, an unknown validator name, a malformed
    descriptor — which the source raises as a precondition error or a
    TypeError. The second kind is a `ConfigError` carried by `Result`.
 */
module Results {

  datatype Option<+T> = None | Some(value: T)

  /** Every misconfiguration the source detects, at construction, compile
      or call time. */
  datatype ConfigError =
    | NameNotSpecified            // processRule: no derivable validator name
    | NotRegistered(name: string) // create: `validators[name]` is undefined
    | FieldNameNotSpecified       // forDescriptor: empty or missing name
    | DescriptorNotObject         // forDescriptor: descriptor is not an object
    | DescriptorsNotObject        // forDescriptors: schema is not an object
    | DescriptorMissing(field: string) // forDescriptors: `descriptor.rules` on null/undefined
    | NotAFunction(field: string) // compiled schema calls a field whose forDescriptor gave null
    | RulesNotArray(field: string) // dist forDescriptors: `descriptor.rules.map` is not a function
    | ReadOfNullish(field: string) // compiled schema reads a field of a null/undefined object
    | ClassNotSpecified           // instanceOf without a truthy `class`
    | ClassNotStringOrFunction    // instanceOf with some other `class`
    | NoLengthConstraints         // length with neither `min` nor `max`
    | BetweenNotPair              // range `between` is not a two-element array
    | InNotArray                  // range `in` is not an array
    | MessageNotString            // prepare called on a missing message
    | NoReferences                // src prepare reading a token of `undefined` references
  {
    /** The text the source attaches to the error. */
    function Text(): string
    {
      match this
      case NameNotSpecified => "Validator name must be specified."
      case NotRegistered(n) => "Cannot read property 'create' of undefined"
      case FieldNameNotSpecified => "Name must be specified."
      case DescriptorNotObject => "Descriptor must be an object."
      case DescriptorsNotObject => "Descriptors must be an object."
      case DescriptorMissing(f) => "Cannot read property 'rules' of undefined"
      case NotAFunction(f) => "validators." + f + " is not a function"
      case RulesNotArray(f) => "descriptor.rules.map is not a function"
      case ReadOfNullish(f) => "Cannot read property '" + f + "' of undefined"
      case ClassNotSpecified => "Class must be specified"
      case ClassNotStringOrFunction => "Class must be a string or a function."
      case NoLengthConstraints => "No constraints specified for length validator."
      case BetweenNotPair => "`between` must be an array containing two values."
      case InNotArray => "`in` must be an array"
      case MessageNotString => "Message must be a string."
      case NoReferences => "Cannot read properties of undefined"
    }
  }

  datatype Result<+T> = Ok(value: T) | Err(error: ConfigError) {

    predicate IsFailure() {
      Err?
    }

    function PropagateFailure<U>(): Result<U>
      requires Err?
    {
      Err(error)
    }

    function Extract(): T
      requires Ok?
    {
      value
    }
  }
}

=== FILE: template.dfy ===
/** Message templating: `prepare` replaces every `{{word}}` token of a
    message with the stringified reference of that name, or with '' when
    the reference is missing or falsy (dist/validating.js:163-172).

    `Prepare` is a left-to-right scan that mirrors the global regular
    expression `/\{\{(\w+)\}\}/g`; `Fill` is an independent definition over
    a parsed template, and `PrepareFormat` proves the two agree.
 */
module Template {
  import opened Text
  import opened JsValues

  /** Length of the longest run of word characters that starts `s`. */
  function WordRun(s: string): (n: nat)
    ensures n <= |s|
    ensures forall i :: 0 <= i < n ==> IsWordChar(s[i])
    ensures n < |s| ==> !IsWordChar(s[n])
  {
    if |s| > 0 && IsWordChar(s[0]) then 1 + WordRun(s[1..]) else 0
  }

  /** Length of the `{{word}}` token that starts `s`, or 0 when none does.
      Since `}` is not a word character, the word of a match is always the
      longest run of word characters after the braces. */
  function TokenLen(s: string): (n: nat)
    ensures n == 0 || 5 <= n <= |s|
  {
    if |s| >= 2 && s[0] == '{' && s[1] == '{' then
      var w := WordRun(s[2..]);
      if w > 0 && w + 4 <= |s| && s[w + 2] == '}' && s[w + 3] == '}' then w + 4 else 0
    else
      0
  }

  /** `references[key]` for an own key, `undefined` otherwise. */
  function Lookup(refs: map<string, JValue>, key: string): JValue
  {
    if key in refs then refs[key] else Undefined
  }

  /** `references[item] || ''`, as the replacement callback returns it. */
  function Render(v: JValue): string
  {
    if Truthy(v) then ToStr(v) else ""
  }

  function Prepare(message: string, refs: map<string, JValue>): string
    decreases |message|
  {
    if |message| == 0 then
      ""
    else
      var n := TokenLen(message);
      if n > 0 then
        Render(Lookup(refs, message[2..n - 2])) + Prepare(message[n..], refs)
      else
        [message[0]] + Prepare(message[1..], refs)
  }

  /** Some position of `s` starts a `{{word}}` token. */
  predicate HasToken(s: string)
  {
    exists i :: 0 <= i < |s| && TokenLen(s[i..]) > 0
  }

  /** A message without tokens comes back unchanged. */
  lemma {:induction false} PrepareWithoutTokens(s: string, refs: map<string, JValue>)
    requires !HasToken(s)
    ensures Prepare(s, refs) == s
  {
    if |s| > 0 {
      assert s[0..] == s;
      assert !HasToken(s[1..]) by {
        forall i | 0 <= i < |s[1..]|
          ensures TokenLen(s[1..][i..]) == 0
        {
          assert s[1..][i..] == s[i + 1..];
        }
      }
      PrepareWithoutTokens(s[1..], refs);
    }
  }

  /** A parsed message template. */
  datatype Piece = Lit(text: string) | Tok(word: string)

  predicate WellFormedPiece(p: Piece)
  {
    match p
    case Lit(t) => forall i :: 0 <= i < |t| ==> t[i] != '{'
    case Tok(w) => |w| > 0 && forall i :: 0 <= i < |w| ==> IsWordChar(w[i])
  }

  /** The message text a template is written as. */
  function Format(ps: seq<Piece>): string
  {
    if |ps| == 0 then ""
    else
      match ps[0]
      case Lit(t) => t + Format(ps[1..])
      case Tok(w) => "{{" + w + "}}" + Format(ps[1..])
  }

  /** The intended result of templating: literal text kept, each token
      replaced by its rendered reference. */
  function Fill(ps: seq<Piece>, refs: map<string, JValue>): string
  {
    if |ps| == 0 then ""
    else
      match ps[0]
      case Lit(t) => t + Fill(ps[1..], refs)
      case Tok(w) => Render(Lookup(refs, w)) + Fill(ps[1..], refs)
  }

  /** The text a single piece contributes to `Fill`. */
  function FillPiece(p: Piece, refs: map<string, JValue>): string
  {
    match p
    case Lit(t) => t
    case Tok(w) => Render(Lookup(refs, w))
  }

  /** The text a single piece is written as. */
  function FormatPiece(p: Piece): string
  {
    match p
    case Lit(t) => t
    case Tok(w) => "{{" + w + "}}"
  }

  lemma FormatCons(p: Piece, ps: seq<Piece>)
    ensures Format([p] + ps) == FormatPiece(p) + Format(ps)
  {
    assert ([p] + ps)[1..] == ps;
  }

  lemma FillCons(p: Piece, ps: seq<Piece>, refs: map<string, JValue>)
    ensures Fill([p] + ps, refs) == FillPiece(p, refs) + Fill(ps, refs)
  {
    assert ([p] + ps)[1..] == ps;
  }

  lemma {:induction false} WordRunOfWord(w: string, rest: string)
    requires forall i :: 0 <= i < |w| ==> IsWordChar(w[i])
    requires |rest| == 0 || !IsWordChar(rest[0])
    ensures WordRun(w + rest) == |w|
  {
    if |w| > 0 {
      assert (w + rest)[1..] == w[1..] + rest;
      WordRunOfWord(w[1..], rest);
    } else {
      assert w + rest == rest;
    }
  }

  /** A character other than `{` is copied and the scan moves on. */
  lemma PrepareCopies(c: char, u: string, refs: map<string, JValue>)
    requires c != '{'
    ensures Prepare([c] + u, refs) == [c] + Prepare(u, refs)
  {
    var s := [c] + u;
    assert s[0] == c && s[1..] == u;
    assert TokenLen(s) == 0;
  }

  lemma ConsAppend(c: char, a: string, b: string)
    ensures [c] + (a + b) == ([c] + a) + b
  {
  }

  lemma {:induction false} PrepareLiteral(t: string, rest: string, refs: map<string, JValue>)
    requires forall i :: 0 <= i < |t| ==> t[i] != '{'
    ensures Prepare(t + rest, refs) == t + Prepare(rest, refs)
  {
    if |t| > 0 {
      var tail := t[1..];
      assert t == [t[0]] + tail;
      PrepareLiteral(tail, rest, refs);
      PrepareCopies(t[0], tail + rest, refs);
      ConsAppend(t[0], tail, rest);
      ConsAppend(t[0], tail, Prepare(rest, refs));
    } else {
      assert t + rest == rest;
    }
  }

  /** A well-formed token anywhere in a message is found by the scan. */
  lemma TokenFound(pre: string, w: string, rest: string)
    requires WellFormedPiece(Tok(w))
    ensures HasToken(pre + "{{" + w + "}}" + rest)
  {
    var s := pre + "{{" + w + "}}" + rest;
    var t := "{{" + w + "}}" + rest;
    assert s[|pre|..] == t;
    assert t[2..] == w + ("}}" + rest);
    WordRunOfWord(w, "}}" + rest);
    assert TokenLen(t) == |w| + 4;
  }

  lemma PrepareToken(w: string, rest: string, refs: map<string, JValue>)
    requires WellFormedPiece(Tok(w))
    ensures Prepare("{{" + w + "}}" + rest, refs) == Render(Lookup(refs, w)) + Prepare(rest, refs)
  {
    var s := "{{" + w + "}}" + rest;
    assert s[2..] == w + ("}}" + rest);
    WordRunOfWord(w, "}}" + rest);
    assert TokenLen(s) == |w| + 4;
    assert s[2..|w| + 2] == w;
    assert s[|w| + 4..] == rest;
  }

  /** Templating a well-formed template yields exactly its filled text. */
  lemma {:induction false} PrepareFormat(ps: seq<Piece>, refs: map<string, JValue>)
    requires forall i :: 0 <= i < |ps| ==> WellFormedPiece(ps[i])
    ensures Prepare(Format(ps), refs) == Fill(ps, refs)
  {
    if |ps| == 0 {
    } else {
      PrepareFormat(ps[1..], refs);
      match ps[0]
      case Lit(t) =>
        PrepareLiteral(t, Format(ps[1..]), refs);
      case Tok(w) =>
        assert WellFormedPiece(ps[0]);
        PrepareToken(w, Format(ps[1..]), refs);
    }
  }
}

=== FILE: text.dfy ===
/** Character classes and decimal conversions used by the message
    templates and the hand-written pattern recognisers.

    Only the ASCII classes the source's regular expressions name are
    modelled: `\d` is `[0-9]`, `\w` is `[A-Za-z0-9_]`, and the `i` flag
    folds ASCII letters.
 */
module Text {

  predicate IsDigit(c: char) {
    '0' <= c <= '9'
  }

  predicate IsAsciiLetter(c: char) {
    'a' <= c <= 'z' || 'A' <= c <= 'Z'
  }

  predicate IsAlnum(c: char) {
    IsDigit(c) || IsAsciiLetter(c)
  }

  /** The regular-expression class `\w`. */
  predicate IsWordChar(c: char) {
    IsAlnum(c) || c == '_'
  }

  predicate AllDigits(s: string) {
    forall i :: 0 <= i < |s| ==> IsDigit(s[i])
  }

  function DigitValue(c: char): nat
    requires IsDigit(c)
  {
    (c as int) - ('0' as int)
  }

  function DigitChar(d: nat): (c: char)
    requires d < 10
    ensures IsDigit(c) && DigitValue(c) == d
  {
    (('0' as int) + d) as char
  }

  /** The value of a run of decimal digits, as unary `+` gives it for a
      regular-expression capture: leading zeros are allowed. */
  function DigitsValue(s: string): nat
    requires AllDigits(s)
  {
    if |s| == 0 then 0 else DigitsValue(s[..|s| - 1]) * 10 + DigitValue(s[|s| - 1])
  }

  /** Decimal rendering of a natural number, without leading zeros. */
  function NatToString(n: nat): (r: string)
    ensures |r| > 0 && AllDigits(r)
    ensures DigitsValue(r) == n
    ensures r[0] == '0' ==> n == 0
  {
    if n < 10 then
      [DigitChar(n)]
    else
      var prefix := NatToString(n / 10);
      var r := prefix + [DigitChar(n % 10)];
      assert r[..|r| - 1] == prefix;
      r
  }

  /** `String(n)` for an integral JavaScript number. */
  function IntToString(n: int): string
  {
    if n < 0 then "-" + NatToString(-n) else NatToString(n)
  }

  /** ASCII case folding, as the `i` flag applies it to the patterns here. */
  function Fold(c: char): char
  {
    if 'A' <= c <= 'Z' then (c as int + 32) as char else c
  }

  predicate SameIgnoringCase(a: string, b: string) {
    |a| == |b| && forall i :: 0 <= i < |a| ==> Fold(a[i]) == Fold(b[i])
  }

  /** Lexicographic order on strings by character, the order JavaScript's
      relational operators and `Array.prototype.sort` use on strings. */
  predicate StringLess(a: string, b: string) {
    if |a| == 0 then |b| > 0
    else if |b| == 0 then false
    else if a[0] != b[0] then a[0] < b[0]
    else StringLess(a[1..], b[1..])
  }

  lemma {:induction false} StringLessIrreflexive(a: string)
    ensures !StringLess(a, a)
  {
    if |a| > 0 {
      StringLessIrreflexive(a[1..]);
    }
  }

  lemma {:induction false} StringLessTotal(a: string, b: string)
    ensures a == b || StringLess(a, b) || StringLess(b, a)
  {
    if |a| > 0 && |b| > 0 && a[0] == b[0] {
      StringLessTotal(a[1..], b[1..]);
      if a[1..] == b[1..] {
        assert a == [a[0]] + a[1..] && b == [b[0]] + b[1..];
      }
    }
  }

  lemma {:induction false} StringLessTransitive(a: string, b: string, c: string)
    requires StringLess(a, b) && StringLess(b, c)
    ensures StringLess(a, c)
  {
    if |a| > 0 && |b| > 0 && |c| > 0 && a[0] == b[0] && b[0] == c[0] {
      StringLessTransitive(a[1..], b[1..], c[1..]);
    }
  }
}

=== FILE: validator.dfy ===
/** The Validator base class (dist/validating.js:111-184, src/validator.js):
    its configuration record, the emptiness test, the `message` accessor
    that aliases `messages.default`, and `prepare` with its fallback to
    the validator's own fields.
 */
module ValidatorBase {
  import opened Results
  import opened JsValues
  import opened Template
  import opened Text

  /** The two shipped builds of the base class and catalog.
      `Dist` is dist/validating.js: its `isEmpty` keeps key-less class
      instances non-empty and its `prepare` falls back to the validator's
      own fields. `Src` is src/validator.js with src/validators.js (and
      lib/validators.js, whose three validators match it): every key-less
      object is empty, `prepare` reads tokens from its references argument
      only, and several validators return their message unprepared. */
  datatype Build = Dist | Src

  /** `isEmpty(value)`, branch for branch. */
  predicate IsEmpty(build: Build, v: JValue)
  {
    if v.Undefined? || v.Null? || v == Str("") then true
    else if v.Arr? && |v.items| == 0 then true
    else if TypeOf(v) == "object" && OwnKeyCount(v) == 0 then
      match build
      case Src => true
      case Dist => Constructor(v).None? || Constructor(v) == Some(ObjectClass)
    else false
  }

  /** What each kind of value counts as under the dist build. */
  lemma DistEmptiness(v: JValue)
    ensures v.Undefined? || v.Null? ==> IsEmpty(Dist, v)
    ensures v.Str? ==> (IsEmpty(Dist, v) <==> v.s == "")
    ensures v.Arr? ==> (IsEmpty(Dist, v) <==> |v.items| == 0)
    ensures v.Obj? ==> (IsEmpty(Dist, v) <==>
                          |v.fields.Keys| == 0 && (v.proto.NoProto? || v.proto.ctor == ObjectClass))
    ensures v.Bool? || v.Num? || v.Fun? || v.Date? ==> !IsEmpty(Dist, v)
  {
  }

  /** The src build accepts everything the dist build does, and also
      key-less class instances and dates. */
  lemma SrcEmptiness(v: JValue)
    ensures IsEmpty(Dist, v) ==> IsEmpty(Src, v)
    ensures IsEmpty(Src, v) && !IsEmpty(Dist, v) <==>
              (v.Date? || (v.Obj? && |v.fields.Keys| == 0 && v.proto.Proto? && v.proto.ctor != ObjectClass))
  {
  }

  /** The catalog, one constructor per built-in validator, each carrying
      its configuration. `Base` is the bare base class and `Custom` a
      validator whose `validate` is a user-supplied function. */
  datatype Kind =
    | Base
    | Custom(check: JValue -> JValue)
    | Required
    | TypeCheck(expected: string)
    | InstanceCheck(cls: JValue)
    | Length(min: Option<int>, max: Option<int>)
    | Number(min: Option<int>, max: Option<int>)
    | Boolean(trueValues: seq<JValue>, falseValues: seq<JValue>)
      /** `None` is the unset pattern, for which the getter returns `new RegExp()`. */
    | Regexp(pattern: Option<string -> bool>)
    | Range(inList: JValue, between: JValue)
    | Url(schemes: seq<string>, strict: bool)
    | Email
    | Ip(v4: bool, v6: bool, v6Pattern: string -> bool)
    | Hostname
    | DateString
    | TimeString
    | DateTimeString

  /** A validator instance: its kind, the shared `allowEmpty` flag, its
      message templates, and the build whose base class it extends. */
  datatype Validator = Validator(kind: Kind, allowEmpty: bool, messages: map<string, string>, build: Build)

  /** What one `validate` call returned: `true`, or anything else, which
      the compiled code records as the error. */
  datatype Outcome = Pass | Fail(error: JValue)

  /** `result !== true` decides between the two outcomes. */
  function OutcomeOf(result: JValue): (o: Outcome)
    ensures o.Pass? <==> result == Bool(true)
    ensures o.Fail? ==> o.error == result
  {
    if result == Bool(true) then Pass else Fail(result)
  }

  const DefaultKey := "default"

  /** Reading `validator.message`. */
  function GetMessage(v: Validator): Option<string>
  {
    if DefaultKey in v.messages then Some(v.messages[DefaultKey]) else None
  }

  /** Writing `validator.message = m`. */
  function SetMessage(v: Validator, m: string): Validator
  {
    v.(messages := v.messages[DefaultKey := m])
  }

  /** `message` is an alias of `messages.default`: writing it is observed
      by both, and nothing else changes. */
  lemma MessageAlias(v: Validator, m: string)
    ensures GetMessage(SetMessage(v, m)) == Some(m)
    ensures SetMessage(v, m).messages[DefaultKey] == m
    ensures forall k :: k in v.messages && k != DefaultKey ==> SetMessage(v, m).messages[k] == v.messages[k]
    ensures SetMessage(v, m).messages.Keys == v.messages.Keys + {DefaultKey}
    ensures SetMessage(v, m).(messages := v.messages) == v
  {
  }

  /** Optional numbers as a validator field holds them: `undefined` or a number. */
  function OptNum(n: Option<int>): JValue
  {
    match n
    case None => Undefined
    case Some(x) => Num(x)
  }

  /** The identity of the arrays and objects an instance owns. `prepare`
      only renders them, and rendering never looks at identity. */
  const OwnRef := 0

  /** A list of strings as a JavaScript array's items. */
  function StrItems(ss: seq<string>): (r: seq<JValue>)
    ensures |r| == |ss|
    ensures forall i :: 0 <= i < |ss| ==> r[i] == Str(ss[i])
  {
    seq(|ss|, i requires 0 <= i < |ss| => Str(ss[i]))
  }

  /** The `messages` object an instance owns. */
  function MessagesObject(messages: map<string, string>): JValue
  {
    Obj(OwnRef, map k | k in messages :: Str(messages[k]), PlainProto)
  }

  /** The validator's fields, which `prepare` consults when it is given
      no references (dist/validating.js:168): the own fields the
      constructor's defaults and `configure` create, and the `message`
      accessor. */
  function OwnFields(v: Validator): map<string, JValue>
  {
    var common := map["allowEmpty" := Bool(v.allowEmpty), "messages" := MessagesObject(v.messages)];
    var withMessage := if DefaultKey in v.messages then common["message" := Str(v.messages[DefaultKey])] else common;
    match v.kind
    case TypeCheck(t) => withMessage["type" := Str(t)]
    case InstanceCheck(c) => withMessage["class" := c]
    case Length(lo, hi) => withMessage["min" := OptNum(lo)]["max" := OptNum(hi)]
    case Number(lo, hi) => withMessage["min" := OptNum(lo)]["max" := OptNum(hi)]
    case Boolean(tv, fv) => withMessage["trueValues" := Arr(OwnRef, tv)]["falseValues" := Arr(OwnRef, fv)]
    case Range(i, b) => withMessage["in" := i]["between" := b]
    case Url(schemes, strict) => withMessage["schemes" := Arr(OwnRef, StrItems(schemes))]["strict" := Bool(strict)]
    case Ip(v4, v6, _) => withMessage["v4" := Bool(v4)]["v6" := Bool(v6)]
    case _ => withMessage
  }

  /** How a failing validator words its message. */
  datatype Wording =
      /** `this.prepare(message)`: no references argument. */
    | Own
      /** `this.prepare(message, refs)`. */
    | Given(refs: map<string, JValue>)
      /** `this.message` returned as is by the src build; the dist build
          prepares it like `Own`. */
    | Raw

  /** What a validator decided about a value, before any message is
      rendered: valid, invalid with the message under `key`, or a broken
      configuration. */
  datatype Verdict = Valid | Invalid(key: string, wording: Wording) | Misconfigured(error: ConfigError)

  /** `this.prepare(message, references)` as each build defines it. A
      missing message fails the dist build's string precondition (the src
      build fails too, calling `replace` on `undefined`). Without
      references the dist build reads the validator's own fields, while
      the src build dereferences `undefined` at the first token. */
  function PrepareIn(v: Validator, key: string, refs: Option<map<string, JValue>>): (r: Result<string>)
    ensures r.Ok? ==> key in v.messages
    ensures refs.Some? || v.build == Dist ==> (r.Ok? <==> key in v.messages)
    ensures refs.Some? && r.Ok? ==> r.value == Prepare(v.messages[key], refs.value)
    ensures v.build == Dist && r.Ok? ==> r.value == Prepare(v.messages[key], if refs.Some? then refs.value else OwnFields(v))
    ensures v.build == Src && refs.None? ==> (r.Ok? <==> key in v.messages && !HasToken(v.messages[key]))
  {
    if key !in v.messages then Err(MessageNotString)
    else
      match refs
      case Some(given) => Ok(Prepare(v.messages[key], given))
      case None =>
        match v.build
        case Dist => Ok(Prepare(v.messages[key], OwnFields(v)))
        case Src => if HasToken(v.messages[key]) then Err(NoReferences) else Ok(v.messages[key])
  }

  /** What `validate` returns (or throws) for a verdict. */
  function Respond(v: Validator, d: Verdict): (r: Result<Outcome>)
    ensures r == Ok(Pass) <==> d == Valid
    ensures d.Misconfigured? ==> r == Err(d.error)
    ensures d.Invalid? && d.key in v.messages && !HasToken(v.messages[d.key]) ==>
              r == Ok(Fail(Str(v.messages[d.key])))
    ensures d.Invalid? && d.wording == Raw && v.build == Src ==>
              r == Ok(Fail(if d.key in v.messages then Str(v.messages[d.key]) else Undefined))
  {
    match d
    case Valid => Ok(Pass)
    case Misconfigured(e) => Err(e)
    case Invalid(key, wording) =>
      if wording == Raw && v.build == Src then
        Ok(Fail(if key in v.messages then Str(v.messages[key]) else Undefined))
      else
        var text := PrepareIn(v, key, if wording.Given? then Some(wording.refs) else None);
        if text.Ok? then
          var m := v.messages[key];
          var refs := if wording.Given? then wording.refs else OwnFields(v);
          assert !HasToken(m) ==> Prepare(m, refs) == m by {
            if !HasToken(m) {
              PrepareWithoutTokens(m, refs);
            }
          }
          Ok(Fail(Str(text.value)))
        else
          Err(text.error)
  }

  /** In the src build, a message prepared without references throws as
      soon as it holds a token; the dist build always returns a string. */
  lemma OwnWordingWithToken(v: Validator, key: string)
    requires key in v.messages && HasToken(v.messages[key])
    ensures v.build == Src ==> Respond(v, Invalid(key, Own)) == Err(NoReferences)
    ensures v.build == Dist ==> Respond(v, Invalid(key, Own)).Ok? && Respond(v, Invalid(key, Own)).value.Fail?
  {
  }

  /** The base class's `validate`: every value is valid. */
  function ValidateBase(v: Validator, value: JValue): (r: Outcome)
    requires v.kind.Base?
    ensures r == Pass
  {
    Pass
  }

  /** What a `{{min}}` token of a length or number message renders as
      from the validator's own fields: the bound's decimal text when it is
      a non-zero number, '' when it is missing or zero. */
  lemma OwnBoundRendering(v: Validator, lo: Option<int>, hi: Option<int>)
    requires v.kind == Length(lo, hi) || v.kind == Number(lo, hi)
    ensures Render(Lookup(OwnFields(v), "min")) ==
              (if lo.Some? && lo.value != 0 then IntToString(lo.value) else "")
    ensures Render(Lookup(OwnFields(v), "max")) ==
              (if hi.Some? && hi.value != 0 then IntToString(hi.value) else "")
  {
  }

  /** The list-valued and object-valued fields an instance owns render
      as `String` prints them: arrays joined by commas, and the
      `messages` object as '[object Object]'. */
  lemma OwnCollectionRendering(v: Validator)
    ensures Render(Lookup(OwnFields(v), "messages")) == "[object Object]"
    ensures v.kind.Boolean? ==> Render(Lookup(OwnFields(v), "trueValues")) == JoinItems(v.kind.trueValues)
    ensures v.kind.Boolean? ==> Render(Lookup(OwnFields(v), "falseValues")) == JoinItems(v.kind.falseValues)
    ensures v.kind.Url? ==> Render(Lookup(OwnFields(v), "schemes")) == JoinItems(StrItems(v.kind.schemes))
  {
  }
}
